=== FILE: README.md ===
# Iroha 2 trigger migration and CSV-to-genesis converter, in Dafny

This project models the two small tools of the repository that talk to an
Iroha 2 ledger.

**The WASM trigger migration** (`Helper.update`) works on a file or a
directory of compiled smart contracts. It runs in one of three modes:

- Default unregisters and re-registers the trigger each file belongs to.
- Unregister only unregisters that trigger.
- Register registers a new trigger for one file.

Each file's trigger is found through its file name: the name minus ".wasm"
must be a prefix of an existing trigger id. A new trigger takes the name
itself. Each file becomes one signed transaction.

**The CSV-to-genesis converter** (`Converter.toGenesis`) turns every row of a
fraud-record CSV into a fixed list of instructions. Those instructions:

- register an asset definition named after the row's id;
- store the row's fields as key-value pairs of the admin's asset;
- store an expiry 120 days after the timestamp;
- grant the admin the right to edit them.

It then appends one transaction holding all of them to a genesis block.

## Layout

| file | module | contents |
|---|---|---|
| `results.dfy` | `Results` | `Option`, and `Result` with failure propagation |
| `sequences.dfy` | `Sequences` | order-preserving subsequences and slice facts |
| `jvm.dfy` | `Jvm` | `startsWith`, `endsWith`, `removeSuffix`, and the two millisecond-to-second roundings the JVM code uses |
| `data_model.dfy` | `DataModel` | ids, values, event filters, triggers, instructions, transactions |
| `trigger_ledger.dfy` | `TriggerLedger` | the node's trigger registry and how a transaction changes it |
| `migration_error.dfy` | `MigrationError` | every way a migration run can fail |
| `triggers.dfy` | `Triggers` | the mode, the repeats and trigger-type codes, and the two filters |
| `wasm_files.dfy` | `WasmFiles` | file enumeration and the name-keyed, insertion-ordered file map |
| `helper.dfy` | `Helper` | the migration run itself |
| `helper_properties.dfy` | `HelperProperties` | what a run does in each mode |
| `helper_scenarios.dfy` | `HelperScenarios` | concrete runs |
| `converter.dfy` | `Converter` | row mapping, value conversion, epoch seconds, genesis append |
| `converter_properties.dfy` | `ConverterProperties` | what the row mapping and the genesis append promise |

### How a run is modelled

`Helper.Update` is a pure function. It takes a `Source`, the admin account, the
mode, the ledger before the run, and the `Settings`.

- The `Source` is the path, the entry at the path, and the entries a recursive
  walk from it yields.
- The `Settings` hold the caller's options and three platform services: the
  wall clock, `String.toLong` and the account-id parser.

It returns a `Run`, which holds three things:

- the log of what was sent to the node, in order: the id query, the
  find-by-id queries and the submitted transactions;
- the ledger afterwards;
- either the list of trigger ids or the error that ended the run.

Transactions are accepted one file after another, so a failure part-way
through keeps the earlier files' transactions and attempts no later file
(`HelperProperties.StopsAtFirstFailure`). That mirrors `map` over the files,
where each call waits for the previous transaction. In Unregister mode a run
therefore succeeds exactly when no two files resolve to the same first
matching id (`HelperProperties.UpdateUnregisterOk`): the second file finds
its id already gone.

The ledger is an ordered list of triggers. Its order is the order in which the
active-trigger query lists ids. A transaction is atomic. Unregistering a
trigger that does not exist, or registering an id that already exists, rejects
the transaction. Instructions that do not concern triggers leave the registry
as it is.

### Three behaviours worth noting

These three behaviours are easy to misread. The model follows the code.

- **Instruction count.** `mapToAssetIsi` emits nine instructions per CSV row,
  not eight: register, the id on the definition, five typed attributes, the
  expiry, and the grant. `Converter.MapToAssetIsi` returns nine.
- **Default repeats.** The default repeats value, -1, does not mean
  "indefinitely": `RepeatsEnum.from(-1)` throws. So Register mode with the
  default options fails with `UnsupportedRepeats(-1)` before anything is
  submitted (`HelperScenarios.DefaultRepeatsRefused`).
- **Default reruns move on.** Default mode unregisters a trigger and registers
  it again, which puts it at the end of the active-trigger list, given that
  the node lists ids in registration order (see "Left out"). A file whose
  name prefixes several ids therefore replaces a different one on the next
  run: with "ab1" and "ab2", "ab.wasm" replaces "ab1" first and "ab2" the
  second time (`HelperScenarios.DefaultRerunMovesOn`).

## Model

| member | source | states |
|---|---|---|
| Jvm.RemoveSuffix | wasm-triggers-migration/src/main/kotlin/jp/co/soramitsu/Helper.kt:49 | a name ending in ".wasm" loses exactly that suffix (appending it back gives the name); any other name is unchanged; the result is always a prefix of the name |
| Jvm.RemoveSuffixOfAppend | wasm-triggers-migration/src/main/kotlin/jp/co/soramitsu/Helper.kt:123 | stripping the suffix from a name built by appending it returns the original name |
| Jvm.MillisToSeconds | wasm-triggers-migration/src/main/kotlin/jp/co/soramitsu/Trigger.kt:45 | `Date().time / 1000` truncates toward zero: for non-negative milliseconds the result is the floor, for negative ones the ceiling, with the exact bounds in each case |
| Jvm.FloorMillisToSeconds | csv-to-genesis/src/main/kotlin/jp/co/soramitsu/Converter.kt:149 | an instant's epoch second is the floor of milliseconds / 1000, for both signs |
| Triggers.RepeatsFrom | wasm-triggers-migration/src/main/kotlin/jp/co/soramitsu/Trigger.kt:14-27 | only 0 and 1 decode, each to the constant carrying that code; every other number fails with UnsupportedRepeats of that number |
| Triggers.RepeatsRoundTrip | wasm-triggers-migration/src/main/kotlin/jp/co/soramitsu/Trigger.kt:14-27 | decoding a constant's code gives the constant back |
| Triggers.TriggerTypeFrom | wasm-triggers-migration/src/main/kotlin/jp/co/soramitsu/Trigger.kt:29-42 | only 0 (time) and 1 (account metadata) decode; every other number fails with UnsupportedTriggerType of that number |
| Triggers.TriggerTypeRoundTrip | wasm-triggers-migration/src/main/kotlin/jp/co/soramitsu/Trigger.kt:29-42 | decoding a trigger type's code gives the type back |
| Triggers.GetTimeTrigger | wasm-triggers-migration/src/main/kotlin/jp/co/soramitsu/Trigger.kt:44-52 | a time filter whose period is the interval in seconds with zero nanoseconds, starting at the current time in whole seconds (truncated, bounds for both signs) with zero nanoseconds |
| Triggers.GetDataTriggerByAccountMetadataInserted | wasm-triggers-migration/src/main/kotlin/jp/co/soramitsu/Trigger.kt:54-65 | a data filter on account metadata insertions whose origin is the given account, and no origin exactly when no account is given |
| WasmFiles.Put | wasm-triggers-migration/src/main/kotlin/jp/co/soramitsu/Helper.kt:102 | insertion into a linked map: a new key is appended with its file; an existing key keeps its position and takes the new file; no other entry changes; keys stay distinct |
| WasmFiles.AssociateByName | wasm-triggers-migration/src/main/kotlin/jp/co/soramitsu/Helper.kt:102 | `associateBy { it.name }` yields one entry per name (keys distinct) |
| WasmFiles.AssociateByNameKeepsLast | wasm-triggers-migration/src/main/kotlin/jp/co/soramitsu/Helper.kt:102 | each key is some file's name and holds the last file with that name |
| WasmFiles.AssociateByNameCovers | wasm-triggers-migration/src/main/kotlin/jp/co/soramitsu/Helper.kt:102 | every file's name is a key |
| WasmFiles.AssociateByNameKeys | wasm-triggers-migration/src/main/kotlin/jp/co/soramitsu/Helper.kt:102 | every key is the name of a file |
| WasmFiles.AssociateByNameOrder | wasm-triggers-migration/src/main/kotlin/jp/co/soramitsu/Helper.kt:102 | keys come in the order of their names' first occurrences |
| WasmFiles.WasmEntries | wasm-triggers-migration/src/main/kotlin/jp/co/soramitsu/Helper.kt:99-101 | an entry is kept exactly when it is in the walk, is not a directory and its name ends in ".wasm"; the kept entries are in walk order (a subsequence of the walk), each as often as it occurs in the walk |
| WasmFiles.FilesFromPath | wasm-triggers-migration/src/main/kotlin/jp/co/soramitsu/Helper.kt:98-103 | distinct keys; every entry is a non-directory from the walk keyed by its own name ending in ".wasm"; every such walk entry's name is a key; each key holds the last such entry with that name, and the keys come in the order of their names' first occurrences among those entries |
| WasmFiles.GetWasmFiles | wasm-triggers-migration/src/main/kotlin/jp/co/soramitsu/Helper.kt:82-96 | Register mode yields the path alone, keyed by its name, exactly when it is a regular file (no suffix check), else nothing; the other modes yield the directory enumeration |
| Helper.IdsByPrefix | wasm-triggers-migration/src/main/kotlin/jp/co/soramitsu/Helper.kt:141-145 | exactly the ids that start with the prefix, in ledger order (a subsequence of the ids); the first is the earliest such id |
| Helper.IdsByPrefixCounts | wasm-triggers-migration/src/main/kotlin/jp/co/soramitsu/Helper.kt:141-145 | each matching id occurs in the result exactly as often as in the ledger's list, every other id not at all |
| Helper.GetRepeats | wasm-triggers-migration/src/main/kotlin/jp/co/soramitsu/Helper.kt:147-152 | 0 gives Indefinitely, 1 gives Exactly(1), each if and only if; every other value fails with UnsupportedRepeats |
| Helper.GetFilter | wasm-triggers-migration/src/main/kotlin/jp/co/soramitsu/Helper.kt:154-159 | type 0 with a numeric argument gives the time filter for that interval; a non-numeric argument fails with NumberFormat; type 1 gives the any-account metadata filter; any other type fails with UnsupportedTriggerType |
| Helper.NewTrigger | wasm-triggers-migration/src/main/kotlin/jp/co/soramitsu/Helper.kt:123-137 | succeeds iff repeats, account and filter all succeed; then the id is the stripped name, the executable is the file's bytes, metadata is empty, and repeats, account and filter are the parsed options; errors are reported in the order repeats, account, filter |
| Helper.Submitted | wasm-triggers-migration/src/main/kotlin/jp/co/soramitsu/Helper.kt:58-79 | the transactions a run sent: one is listed exactly when the log holds a step submitting it |
| Helper.BuildTransaction | wasm-triggers-migration/src/main/kotlin/jp/co/soramitsu/Helper.kt:58-73 | signed by the admin, only about the trigger's id, an unregister exactly in Default and Unregister mode, a register exactly in Default and Register mode, unregister first, and nothing else (two instructions in Default mode, one otherwise); the register carries the trigger with the file's bytes |
| Helper.SubmitBuilt | wasm-triggers-migration/src/main/kotlin/jp/co/soramitsu/Helper.kt:58-79 | the transaction is accepted iff the trigger exists (Default, Unregister) or does not (Register); it then removes and/or adds exactly that id, and a registered trigger is found with the file's bytes |
| Helper.GetTrigger | wasm-triggers-migration/src/main/kotlin/jp/co/soramitsu/Helper.kt:105-139 | Default/Unregister: one find-by-id query for the first id with the stripped name as prefix, failing with TriggerNotFound when it is gone; Register: no query, TriggerAlreadyExists listing the matching ids when there are any, else the new trigger; nothing submitted |
| Helper.ProcessUnit | wasm-triggers-migration/src/main/kotlin/jp/co/soramitsu/Helper.kt:55-79 | one file: at most one submission, exactly one on success and shaped for the returned id; a failure leaves the ledger untouched; the id set changes by exactly that id as the mode says; the returned id is the first id in query order that the stripped name prefixes and existed (Default, Unregister), or is the stripped name and was new (Register) |
| Helper.Update | wasm-triggers-migration/src/main/kotlin/jp/co/soramitsu/Helper.kt:29-80 | no files: InputNotFound of the path and nothing sent; otherwise the id query comes first; Default/Unregister with a stripped name that prefixes no id: UnknownTrigger listing ids and names, and nothing else sent |
| Helper.ProcessUnits | wasm-triggers-migration/src/main/kotlin/jp/co/soramitsu/Helper.kt:55-79 | the per-file fold: a success returns one id and one submission per file; a run never submits more transactions than there are files |
| HelperProperties.FailurePrefix | wasm-triggers-migration/src/main/kotlin/jp/co/soramitsu/Helper.kt:55-79 | every failed fold fails at some file k: the first k files make a successful fold that leaves the final ledger, and the failed run equals the run over the first k + 1 files alone, so no later file is attempted |
| HelperProperties.StopsAtFirstFailure | wasm-triggers-migration/src/main/kotlin/jp/co/soramitsu/Helper.kt:55-79 | after a failure at file k, the k files before it returned k ids and submitted k transactions that stay on the ledger, and at most one more transaction was sent |
| HelperProperties.AllShapedAt | wasm-triggers-migration/src/main/kotlin/jp/co/soramitsu/Helper.kt:55-79 | the i-th submitted transaction is shaped for the i-th returned id, which is the one resolved for the i-th file |
| HelperProperties.ProcessUnitsShape | wasm-triggers-migration/src/main/kotlin/jp/co/soramitsu/Helper.kt:55-79 | a successful fold submits one transaction per file and returns one id per file, in file order, each transaction shaped for its file's id |
| HelperProperties.ProcessUnitsDefault | wasm-triggers-migration/src/main/kotlin/jp/co/soramitsu/Helper.kt:55-79 | in Default mode, when every file resolves to an existing id, the fold cannot fail and keeps the set of trigger ids |
| HelperProperties.ProcessUnitsUnregister | wasm-triggers-migration/src/main/kotlin/jp/co/soramitsu/Helper.kt:55-79 | in Unregister mode a successful fold removed exactly the returned ids, all of which existed, none twice |
| HelperProperties.ProcessUnitsUnregisterOk | wasm-triggers-migration/src/main/kotlin/jp/co/soramitsu/Helper.kt:55-79 | an Unregister fold succeeds exactly when the files' first matching ids are pairwise distinct and all on the ledger |
| HelperProperties.UpdateProceeds | wasm-triggers-migration/src/main/kotlin/jp/co/soramitsu/Helper.kt:39-79 | an unfolding of `Update` used by the other proofs: once there are files and every name is known, the run is the id query followed by the per-file fold, and each file passes the fold's precondition |
| HelperProperties.UpdateShape | wasm-triggers-migration/src/main/kotlin/jp/co/soramitsu/Helper.kt:29-80 | a successful run returns one id per enumerated file in order, and the i-th submitted transaction is the i-th file's, signed by the admin, only about the i-th id, shaped by the mode |
| HelperProperties.UpdateDefault | wasm-triggers-migration/src/main/kotlin/jp/co/soramitsu/Helper.kt:29-80 | Default mode succeeds iff there are files and each stripped name prefixes an existing id; a success leaves the set of trigger ids unchanged |
| HelperProperties.DefaultRerun | wasm-triggers-migration/src/main/kotlin/jp/co/soramitsu/Helper.kt:29-80 | when there are files and every stripped name prefixes an id, a Default run succeeds, and running it again on the same files succeeds too and still keeps the set of ids |
| HelperProperties.ProcessUnitDefaultMoves | wasm-triggers-migration/src/main/kotlin/jp/co/soramitsu/Helper.kt:55-79 | in Default mode a file whose stripped name prefixes an id succeeds with the first such id, which is taken out of the ledger and appended again with the file's bytes as its executable |
| HelperProperties.UpdateDefaultOne | wasm-triggers-migration/src/main/kotlin/jp/co/soramitsu/Helper.kt:29-80 | a Default run over one known file returns that file's first matching id and leaves the ledger with that trigger moved to the end, its executable replaced |
| HelperProperties.UpdateUnregister | wasm-triggers-migration/src/main/kotlin/jp/co/soramitsu/Helper.kt:29-80 | a successful Unregister run removed exactly the returned ids from the ledger, each existed, none is returned twice |
| HelperProperties.UpdateUnregisterOk | wasm-triggers-migration/src/main/kotlin/jp/co/soramitsu/Helper.kt:29-80 | an Unregister run succeeds exactly when there are files, every stripped name prefixes an existing id, and no two files have the same first matching id |
| HelperProperties.UpdateRegister | wasm-triggers-migration/src/main/kotlin/jp/co/soramitsu/Helper.kt:29-80 | Register succeeds iff the path is a regular file, its stripped name prefixes no id and the options are valid; then it returns just that name, adds only it to the ledger, and the ledger holds the new trigger with empty metadata |
| HelperProperties.RegisterCollision | wasm-triggers-migration/src/main/kotlin/jp/co/soramitsu/Helper.kt:123-127 | Register mode refuses a name that prefixes existing ids with TriggerAlreadyExists listing them; nothing submitted, ledger untouched |
| HelperProperties.UnknownTriggerSendsNothing | wasm-triggers-migration/src/main/kotlin/jp/co/soramitsu/Helper.kt:48-53 | an unknown file name in Default/Unregister mode refuses the whole batch before any submission |
| HelperScenarios.RegisterFraudcheck | wasm-triggers-migration/src/main/kotlin/jp/co/soramitsu/Helper.kt:29-80 | registering "fraudcheck.wasm" with repeats 0 and a 3600-second time trigger returns ["fraudcheck"] and the ledger holds that trigger, starting at the current second, repeating indefinitely, with empty metadata |
| HelperScenarios.DefaultRepeatsRefused | wasm-triggers-migration/src/main/kotlin/jp/co/soramitsu/Helper.kt:34 | Register mode with the default repeats -1 fails with UnsupportedRepeats(-1), submits nothing and keeps the ledger |
| HelperScenarios.EmptyDirectory | wasm-triggers-migration/src/main/kotlin/jp/co/soramitsu/Helper.kt:39-42 | a directory without ".wasm" files fails with InputNotFound before any query |
| HelperScenarios.UnregisterSharedPrefix | wasm-triggers-migration/src/main/kotlin/jp/co/soramitsu/Helper.kt:55-79 | with files "a.wasm" and "ab.wasm" and the single trigger "abc", Unregister removes "abc" for the first file, fails with TriggerNotFound for the second, and the first removal stays (one submission, empty ledger) |
| HelperScenarios.DefaultRerunMovesOn | wasm-triggers-migration/src/main/kotlin/jp/co/soramitsu/Helper.kt:55-79 | with triggers "ab1", "ab2" and the file "ab.wasm", a Default run replaces "ab1" and moves it behind "ab2", so running it again replaces "ab2" |
| Converter.AsValue | csv-to-genesis/src/main/kotlin/jp/co/soramitsu/Converter.kt:157-164 | String, Long, Int, BigInteger and Boolean convert to the ledger value of the same kind and content (converting back gives the input); any other type fails with UnsupportedValueType |
| Converter.AsValueOfToJvm | csv-to-genesis/src/main/kotlin/jp/co/soramitsu/Converter.kt:157-164 | every ledger value survives the round trip through its JVM value |
| Converter.DateToInstant | csv-to-genesis/src/main/kotlin/jp/co/soramitsu/Converter.kt:149 | the instant's seconds and nanoseconds recompose the date's milliseconds, nanoseconds in range |
| Converter.ToEpochSeconds | csv-to-genesis/src/main/kotlin/jp/co/soramitsu/Converter.kt:166-171 | the floor of the date's seconds, moved by the duration's seconds when one is given |
| Converter.ToSkvIsi | csv-to-genesis/src/main/kotlin/jp/co/soramitsu/Converter.kt:143-154 | succeeds iff the column exists and reads with its type; then sets that field's key on the asset to the column's text, number or date epoch second |
| Converter.MapToAssetIsi | csv-to-genesis/src/main/kotlin/jp/co/soramitsu/Converter.kt:99-127 | a mapped row yields exactly nine instructions |
| Converter.RecordOfInstructionsOf | csv-to-genesis/src/main/kotlin/jp/co/soramitsu/Converter.kt:99-127 | the decoder of a row's instructions reads back every record from its encoding |
| Converter.MapRows | csv-to-genesis/src/main/kotlin/jp/co/soramitsu/Converter.kt:92 | succeeds iff every row maps; the result is nine instructions per row, the k-th block of nine being row k's |
| Converter.ToGenesis | csv-to-genesis/src/main/kotlin/jp/co/soramitsu/Converter.kt:75-97 | succeeds iff every row maps; keeps the block's transactions and appends one transaction: register the domain, register the admin with the public key, then each row's nine instructions in row order |
| ConverterProperties.MapToAssetIsiIsInstructionsOf | csv-to-genesis/src/main/kotlin/jp/co/soramitsu/Converter.kt:99-127 | a row maps iff it reads as a fraud record (all columns up to 14, numeric columns 12 and 14, date column 1), and then to exactly that record's encoding |
| ConverterProperties.MapToAssetIsiRoundTrip | csv-to-genesis/src/main/kotlin/jp/co/soramitsu/Converter.kt:99-127 | a row maps iff it reads as a record, and decoding its instructions gives that record back |
| ConverterProperties.ExpiryIsTimestampPlus120Days | csv-to-genesis/src/main/kotlin/jp/co/soramitsu/Converter.kt:115-122 | the timestamp is stored as column 1's epoch second and the expiry as that plus 10368000 seconds |
| ConverterProperties.MapToAssetIsiFields | csv-to-genesis/src/main/kotlin/jp/co/soramitsu/Converter.kt:102-114 | the definition is column 0 in "some_domain", the asset pairs it with "some_admin", columns 4 and 5 are stored as text and 12 and 14 as parsed numbers, and the grant goes to the admin |
| ConverterProperties.MapNeverUnsupported | csv-to-genesis/src/main/kotlin/jp/co/soramitsu/Converter.kt:157-164 | mapping a row never reaches the unsupported-type failure |
| ConverterProperties.ToEpochSecondsShift | csv-to-genesis/src/main/kotlin/jp/co/soramitsu/Converter.kt:166-171 | moving by a duration adds exactly its seconds to the epoch second |
| ConverterProperties.ToGenesisAppendsOne | csv-to-genesis/src/main/kotlin/jp/co/soramitsu/Converter.kt:75-97 | when every row reads as a record, the conversion succeeds, keeps the block, and appends one transaction of 2 + 9 per row instructions |

## Left out

- Transport and signing are not modelled: the client, query and transaction signing, key pairs, coroutines, and the 30-second acknowledgement timeout in `update`. A submission is a log step applied to the ledger at once.
- `sendToIroha` in the converter is not modelled. It is fire-and-forget transport with a one-second delay; `toGenesis` builds the same instructions.
- `Mode.from` is not modelled; Mode.kt, which defines the mode codes, is not part of this model. The mode is a closed datatype, so the failure for an unknown mode number is not modelled.
- The file system is not modelled. The recursive walk is a parameter, the sequence of entries in walk order. A file's bytes are a field of its entry. I/O errors are not modelled.
- The SDK's name validation (`asName`, `asDomainId`) is not modelled. Trigger names, CSV ids and the constant domain and admin names are taken as valid.
- Three platform services are function-valued parameters: `String.asAccountId`, `String.toLong` and the `yyyy-MM-dd HH:mm:ss` date parser. The parser includes its time zone.
- The wall clock (`Date().time`) is the parameter `nowMillis`.
- The generated admin key pair is not modelled; its public key is a parameter.
- CSV and JSON parsing are not modelled. A CSV row is the sequence of its cells, with the header already skipped. The genesis block is its list of transactions. JSON (de)serialisation and the output file are left out.
- The node's behaviour is assumed, because it is not in this source. The active-trigger query lists ids in registration order. Transactions are atomic. Unregistering a missing trigger, or registering an existing id, is rejected. Find-by-id on a missing id fails.
- Integers are unbounded, and two Long limits are not modelled. `String.toLong` is a parameter, so refusing a number outside the Long range is up to the function passed in; the model does not bound its results. `Instant.plusSeconds` in `toEpochSeconds` throws when the sum leaves the `Instant` range; the model adds without that check, which only matters for dates about a billion years away.
- Error messages are replaced by the constructors of `MigrationError.Error` and `Converter.ConversionError`.

=== FILE: converter.dfy ===
/** The CSV-to-genesis converter: each CSV row of a fraud record becomes a
    fixed list of ledger instructions that store the record as key-value
    pairs of one asset, and the genesis block gets one more transaction
    holding them all. Text parsing (`String.toLong`, the date format
    "yyyy-MM-dd HH:mm:ss") is a parameter. */
module Converter {
  import opened Results
  import opened Sequences
  import opened Jvm
  import opened DataModel

  const Domain: DomainId := DomainId("some_domain")
  const Admin: AccountId := AccountId("some_admin", Domain)

  /** A stored attribute: its key in the asset's store and its CSV column. */
  datatype Field = Field(key: string, column: nat)

  const IdField: Field := Field("id", 0)
  const FraudType: Field := Field("ft", 12)
  const Origination: Field := Field("org", 4)
  const Destination: Field := Field("dst", 5)
  const Status: Field := Field("sts", 14)
  const Timestamp: Field := Field("ts", 1)
  /** The expiry is computed from the timestamp column. */
  const ExpiryDate: Field := Field("ed", Timestamp.column)

  const ExpiryDays := 120
  const SecondsPerDay := 86400

  datatype ConversionError =
    | ColumnMissing(column: nat)
    | NumberFormat(text: string)
    | DateFormat(text: string)
    | UnsupportedValueType

  /** `String.toLong` and the date formatter's `parse`, which yields
      milliseconds since the epoch; `None` is a parse failure. */
  datatype Parsers = Parsers(toLong: string -> Option<int>, parseDateMillis: string -> Option<int>)

  type Row = seq<string>

  /** `CSVRecord.get(column)`: fails when the row is too short. */
  function Cell(row: Row, column: nat): (r: Result<string, ConversionError>)
    ensures r.Ok? <==> column < |row|
    ensures r.Ok? ==> r.value == row[column]
    ensures r.Err? ==> r.error == ColumnMissing(column)
  {
    if column < |row| then Ok(row[column]) else Err(ColumnMissing(column))
  }

  /** The runtime type of a value handed to the value conversion. */
  datatype JvmValue =
    | JString(text: string)
    | JLong(number: int)
    | JInt(number: int)
    | JBigInteger(number: int)
    | JBoolean(flag: bool)
    | JOther(className: string)

  /** The JVM value a ledger value was made from. */
  function ToJvm(v: Value): JvmValue {
    match v
    case StringValue(t) => JString(t)
    case LongValue(n) => JLong(n)
    case IntValue(n) => JInt(n)
    case BigIntegerValue(n) => JBigInteger(n)
    case BoolValue(b) => JBoolean(b)
  }

  /** `asValue`: dispatch on the runtime type; any type but String, Long,
      Int, BigInteger and Boolean is refused. */
  function AsValue(v: JvmValue): (r: Result<Value, ConversionError>)
    ensures r.Err? <==> v.JOther?
    ensures r.Err? ==> r.error == UnsupportedValueType
    ensures r.Ok? ==> ToJvm(r.value) == v
  {
    match v
    case JString(t) => Ok(StringValue(t))
    case JLong(n) => Ok(LongValue(n))
    case JInt(n) => Ok(IntValue(n))
    case JBigInteger(n) => Ok(BigIntegerValue(n))
    case JBoolean(b) => Ok(BoolValue(b))
    case JOther(_) => Err(UnsupportedValueType)
  }

  lemma AsValueOfToJvm(v: Value)
    ensures AsValue(ToJvm(v)) == Ok(v)
  {
  }

  /** A `java.time.Duration`. */
  datatype JavaDuration = JavaDuration(seconds: int, nanos: int)

  function OfDays(days: int): (d: JavaDuration)
    ensures d.seconds == days * SecondsPerDay && d.nanos == 0
  {
    JavaDuration(days * 86400, 0)
  }

  /** A `java.time.Instant`: seconds since the epoch plus nanoseconds. */
  datatype Instant = Instant(epochSecond: int, nanos: int)

  /** `Date.toInstant()` for a date at `millis` milliseconds since the epoch. */
  function DateToInstant(millis: int): (i: Instant)
    ensures i.epochSecond * 1000 + i.nanos / 1000000 == millis
    ensures 0 <= i.nanos < 1000000000
  {
    Instant(FloorMillisToSeconds(millis), (millis % 1000) * 1000000)
  }

  function PlusSeconds(i: Instant, seconds: int): Instant {
    Instant(i.epochSecond + seconds, i.nanos)
  }

  /** `Date.toEpochSeconds(plus)`: the date's epoch second, moved by the
      duration's seconds when one is given. */
  function ToEpochSeconds(dateMillis: int, plus: Option<JavaDuration>): (r: int)
    ensures plus.None? ==> r * 1000 <= dateMillis < (r + 1) * 1000
    ensures plus.Some? ==>
      (r - plus.value.seconds) * 1000 <= dateMillis < (r - plus.value.seconds + 1) * 1000
  {
    var instant := DateToInstant(dateMillis);
    (match plus
     case Some(d) => PlusSeconds(instant, d.seconds)
     case None => instant).epochSecond
  }

  /** How `toSkvIsi` reads a column: as text, as a number, or as a date
      stored as its epoch second. */
  datatype ColumnType = StringType | LongType | DateType

  function TypedCell(row: Row, field: Field, t: ColumnType, p: Parsers): Result<JvmValue, ConversionError> {
    var text :- Cell(row, field.column);
    match t
    case StringType => Ok(JString(text))
    case LongType =>
      (match p.toLong(text)
       case None => Err(NumberFormat(text))
       case Some(n) => Ok(JLong(n)))
    case DateType =>
      (match p.parseDateMillis(text)
       case None => Err(DateFormat(text))
       case Some(millis) => Ok(JLong(DateToInstant(millis).epochSecond)))
  }

  /** The value a column holds when read with the given type, if it can be
      read: the reference reading, independent of how instructions are built,
      that the contract of `ToSkvIsi` is stated against. */
  function ColumnValue(row: Row, column: nat, t: ColumnType, p: Parsers): Option<Value> {
    if column >= |row| then None
    else match t
      case StringType => Some(StringValue(row[column]))
      case LongType => if p.toLong(row[column]).Some? then Some(LongValue(p.toLong(row[column]).value)) else None
      case DateType =>
        if p.parseDateMillis(row[column]).Some?
        then Some(LongValue(ToEpochSeconds(p.parseDateMillis(row[column]).value, None)))
        else None
  }

  /** One set-key-value instruction on the asset for one typed column. */
  function ToSkvIsi(row: Row, assetId: AssetId, field: Field, t: ColumnType, p: Parsers): (r: Result<Instruction, ConversionError>)
    ensures r.Ok? <==> ColumnValue(row, field.column, t, p).Some?
    ensures r.Ok? ==> r.value == SetKeyValueAsset(assetId, field.key, ColumnValue(row, field.column, t, p).value)
  {
    var v :- TypedCell(row, field, t, p);
    var value :- AsValue(v);
    Ok(SetKeyValueAsset(assetId, field.key, value))
  }

  /** Seconds in the 120 days an expiry lies after the timestamp. */
  const ExpirySeconds := ExpiryDays * SecondsPerDay

  /** The instructions for one CSV row (`mapToAssetIsi`): register the asset
      definition named by column 0, store the id on the definition, store
      the typed columns on the admin's asset, store the expiry, and let the
      admin set the asset's key-values. */
  function MapToAssetIsi(row: Row, p: Parsers): (r: Result<seq<Instruction>, ConversionError>)
    ensures r.Ok? ==> |r.value| == 9
  {
    var id :- Cell(row, IdField.column);
    var definitionId := AssetDefinitionId(id, Domain);
    var assetId := AssetId(definitionId, Admin);
    var ft :- ToSkvIsi(row, assetId, FraudType, LongType, p);
    var org :- ToSkvIsi(row, assetId, Origination, StringType, p);
    var dst :- ToSkvIsi(row, assetId, Destination, StringType, p);
    var sts :- ToSkvIsi(row, assetId, Status, LongType, p);
    var ts :- ToSkvIsi(row, assetId, Timestamp, DateType, p);
    // the timestamp column was read above, so this second read succeeds
    var edText := Cell(row, ExpiryDate.column).value;
    // and parses, since the same text parsed as the timestamp
    var edMillis := p.parseDateMillis(edText).value;
    // a Long is always convertible
    var edValue := AsValue(JLong(ToEpochSeconds(edMillis, Some(OfDays(ExpiryDays))))).value;
    Ok([RegisterAsset(definitionId, Store),
        SetKeyValueDefinition(definitionId, IdField.key, StringValue(id)),
        ft, org, dst, sts, ts,
        SetKeyValueAsset(assetId, ExpiryDate.key, edValue),
        GrantSetKeyValueAsset(assetId, Admin)])
  }

  /** A fraud record with its typed fields; the timestamp in epoch seconds. */
  datatype FraudRecord = FraudRecord(
    id: string, fraudType: int, origination: string, destination: string, status: int, timestamp: int)

  /** Reference reading of a row: defined exactly when the row has all
      columns up to 14 and its numeric and date columns parse. */
  function ReadRecord(row: Row, p: Parsers): Option<FraudRecord> {
    if |row| > 14 && p.toLong(row[12]).Some? && p.toLong(row[14]).Some? && p.parseDateMillis(row[1]).Some?
    then Some(FraudRecord(row[0], p.toLong(row[12]).value, row[4], row[5], p.toLong(row[14]).value,
                          ToEpochSeconds(p.parseDateMillis(row[1]).value, None)))
    else None
  }

  /** The instructions that store a fraud record: the reference encoding a
      mapped row is compared against. */
  function InstructionsOf(rec: FraudRecord): seq<Instruction> {
    var def := AssetDefinitionId(rec.id, Domain);
    var assetId := AssetId(def, Admin);
    [RegisterAsset(def, Store),
     SetKeyValueDefinition(def, IdField.key, StringValue(rec.id)),
     SetKeyValueAsset(assetId, FraudType.key, LongValue(rec.fraudType)),
     SetKeyValueAsset(assetId, Origination.key, StringValue(rec.origination)),
     SetKeyValueAsset(assetId, Destination.key, StringValue(rec.destination)),
     SetKeyValueAsset(assetId, Status.key, LongValue(rec.status)),
     SetKeyValueAsset(assetId, Timestamp.key, LongValue(rec.timestamp)),
     SetKeyValueAsset(assetId, ExpiryDate.key, LongValue(rec.timestamp + ExpirySeconds)),
     GrantSetKeyValueAsset(assetId, Admin)]
  }

  /** A set-key-value on `assetId` under `key`. */
  predicate IsSkv(isi: Instruction, assetId: AssetId, key: string) {
    isi.SetKeyValueAsset? && isi.asset == assetId && isi.key == key
  }

  /** Reads a record back from a row's instructions, checking their fixed
      shape: the asset definition in the domain, the id on the definition,
      the five typed attributes, an expiry 120 days after the timestamp, and
      the grant to the admin, in this order. */
  function RecordOf(isis: seq<Instruction>): Option<FraudRecord> {
    if |isis| != 9 || !isis[0].RegisterAsset? then None
    else
      var def := isis[0].definition;
      var assetId := AssetId(def, Admin);
      if && def.domain == Domain
         && isis[0].valueType == Store
         && isis[1] == SetKeyValueDefinition(def, "id", StringValue(def.name))
         && IsSkv(isis[2], assetId, "ft") && isis[2].value.LongValue?
         && IsSkv(isis[3], assetId, "org") && isis[3].value.StringValue?
         && IsSkv(isis[4], assetId, "dst") && isis[4].value.StringValue?
         && IsSkv(isis[5], assetId, "sts") && isis[5].value.LongValue?
         && IsSkv(isis[6], assetId, "ts") && isis[6].value.LongValue?
         && isis[7] == SetKeyValueAsset(assetId, "ed", LongValue(isis[6].value.number + ExpirySeconds))
         && isis[8] == GrantSetKeyValueAsset(assetId, Admin)
      then Some(FraudRecord(def.name, isis[2].value.number, isis[3].value.text, isis[4].value.text,
                            isis[5].value.number, isis[6].value.number))
      else None
  }

  /** The transaction appended to a genesis block. */
  datatype GenesisTransaction = GenesisTransaction(isi: seq<Instruction>)

  /** Every row's instructions, concatenated in row order; the first row
      that cannot be mapped stops the conversion. */
  function MapRows(rows: seq<Row>, p: Parsers): (r: Result<seq<Instruction>, ConversionError>)
    ensures r.Ok? <==> forall k :: 0 <= k < |rows| ==> MapToAssetIsi(rows[k], p).Ok?
    ensures r.Ok? ==> |r.value| == 9 * |rows|
    ensures r.Ok? ==> forall k :: 0 <= k < |rows| ==> r.value[9 * k..9 * k + 9] == MapToAssetIsi(rows[k], p).value
  {
    if |rows| == 0 then Ok([])
    else
      var head :- MapToAssetIsi(rows[0], p);
      var tail :- MapRows(rows[1..], p);
      forall k | 1 <= k < |rows|
        ensures (head + tail)[9 * k..9 * k + 9] == MapToAssetIsi(rows[k], p).value
      {
        assert rows[k] == rows[1..][k - 1];
        AppendSlice(head, tail, 9 * k, 9 * k + 9);
      }
      assert (head + tail)[..9] == head;
      Ok(head + tail)
  }

  /** `toGenesis`: the block's transactions, kept as they are, plus one new
      transaction registering the domain and the admin account (with the
      generated public key) followed by every row's instructions. */
  function ToGenesis(block: seq<GenesisTransaction>, rows: seq<Row>, adminKey: PublicKey, p: Parsers)
    : (r: Result<seq<GenesisTransaction>, ConversionError>)
    ensures r.Ok? <==> forall k :: 0 <= k < |rows| ==> MapToAssetIsi(rows[k], p).Ok?
    ensures r.Ok? ==> |r.value| == |block| + 1 && r.value[..|block|] == block
    ensures r.Ok? ==>
      var isi := r.value[|block|].isi;
      && |isi| == 2 + 9 * |rows|
      && isi[0] == RegisterDomain(Domain)
      && isi[1] == RegisterAccount(Admin, [adminKey])
      && forall k :: 0 <= k < |rows| ==> isi[2 + 9 * k..2 + 9 * k + 9] == MapToAssetIsi(rows[k], p).value
  {
    var isi := [RegisterDomain(Domain), RegisterAccount(Admin, [adminKey])];
    var mapped :- MapRows(rows, p);
    forall k | 0 <= k < |rows|
      ensures (isi + mapped)[2 + 9 * k..2 + 9 * k + 9] == MapToAssetIsi(rows[k], p).value
    {
      AppendSlice(isi, mapped, 2 + 9 * k, 2 + 9 * k + 9);
    }
    Ok(block + [GenesisTransaction(isi + mapped)])
  }

  /** Decoding the instructions of any record gives the record back. */
  lemma RecordOfInstructionsOf(rec: FraudRecord)
    ensures RecordOf(InstructionsOf(rec)) == Some(rec)
  {
    var isis := InstructionsOf(rec);
    var def := AssetDefinitionId(rec.id, Domain);
    assert isis[0] == RegisterAsset(def, Store);
    assert def.name == rec.id;
  }
}

=== FILE: converter_properties.dfy ===
/** What the row mapper and the genesis append promise. */
module ConverterProperties {
  import opened Results
  import opened DataModel
  import opened Converter

  /** A row maps exactly when it can be read as a fraud record, and then
      to that record's instructions. */
  lemma MapToAssetIsiIsInstructionsOf(row: Row, p: Parsers)
    ensures ReadRecord(row, p).None? ==> MapToAssetIsi(row, p).Err?
    ensures ReadRecord(row, p).Some? ==> MapToAssetIsi(row, p) == Ok(InstructionsOf(ReadRecord(row, p).value))
  {
    if ReadRecord(row, p).Some? {
      var millis := p.parseDateMillis(row[1]).value;
      assert ToEpochSeconds(millis, Some(OfDays(ExpiryDays))) == ToEpochSeconds(millis, None) + ExpirySeconds;
    }
  }

  /** The record read back from a mapped row's instructions is the row's
      record: the instructions hold the row's fields unchanged, in their
      fixed places. */
  lemma MapToAssetIsiRoundTrip(row: Row, p: Parsers)
    ensures MapToAssetIsi(row, p).Ok? <==> ReadRecord(row, p).Some?
    ensures MapToAssetIsi(row, p).Ok? ==> RecordOf(MapToAssetIsi(row, p).value) == ReadRecord(row, p)
  {
    MapToAssetIsiIsInstructionsOf(row, p);
    if ReadRecord(row, p).Some? {
      RecordOfInstructionsOf(ReadRecord(row, p).value);
    }
  }

  /** The expiry is stored as the timestamp's epoch second plus 120 days,
      10368000 seconds, and both come from column 1. */
  lemma ExpiryIsTimestampPlus120Days(row: Row, p: Parsers)
    requires MapToAssetIsi(row, p).Ok?
    ensures var isis := MapToAssetIsi(row, p).value;
      var seconds := ToEpochSeconds(p.parseDateMillis(row[1]).value, None);
      && isis[6].SetKeyValueAsset? && isis[6].key == "ts" && isis[6].value == LongValue(seconds)
      && isis[7].SetKeyValueAsset? && isis[7].key == "ed" && isis[7].value == LongValue(seconds + 10368000)
  {
  }

  /** The asset definition is named by column 0 in the tool's domain; the
      asset pairs it with the admin account; the string columns 4 and 5 are
      stored as they are and the numeric columns 12 and 14 as parsed. */
  lemma MapToAssetIsiFields(row: Row, p: Parsers)
    requires MapToAssetIsi(row, p).Ok?
    ensures var isis := MapToAssetIsi(row, p).value;
      var def := AssetDefinitionId(row[0], DomainId("some_domain"));
      var assetId := AssetId(def, AccountId("some_admin", DomainId("some_domain")));
      && isis[0] == RegisterAsset(def, Store)
      && isis[1] == SetKeyValueDefinition(def, "id", StringValue(row[0]))
      && isis[2] == SetKeyValueAsset(assetId, "ft", LongValue(p.toLong(row[12]).value))
      && isis[3] == SetKeyValueAsset(assetId, "org", StringValue(row[4]))
      && isis[4] == SetKeyValueAsset(assetId, "dst", StringValue(row[5]))
      && isis[5] == SetKeyValueAsset(assetId, "sts", LongValue(p.toLong(row[14]).value))
      && isis[8] == GrantSetKeyValueAsset(assetId, AccountId("some_admin", DomainId("some_domain")))
  {
    MapToAssetIsiIsInstructionsOf(row, p);
  }

  /** Mapping a row never reaches the unsupported-type failure: every value
      it converts is a String or a Long. */
  lemma MapNeverUnsupported(row: Row, p: Parsers)
    ensures MapToAssetIsi(row, p) != Err(UnsupportedValueType)
  {
  }

  /** Moving by a duration adds exactly its seconds to the epoch second. */
  lemma ToEpochSecondsShift(dateMillis: int, d: JavaDuration)
    ensures ToEpochSeconds(dateMillis, Some(d)) == ToEpochSeconds(dateMillis, None) + d.seconds
  {
  }

  /** The genesis append keeps the existing transactions and adds one whose
      length is two plus nine per row. */
  lemma ToGenesisAppendsOne(block: seq<GenesisTransaction>, rows: seq<Row>, adminKey: PublicKey, p: Parsers)
    requires forall k :: 0 <= k < |rows| ==> ReadRecord(rows[k], p).Some?
    ensures var r := ToGenesis(block, rows, adminKey, p);
      r.Ok? && r.value[..|block|] == block && |r.value| == |block| + 1 &&
      |r.value[|block|].isi| == 2 + 9 * |rows|
  {
    forall k | 0 <= k < |rows| ensures MapToAssetIsi(rows[k], p).Ok? {
      MapToAssetIsiRoundTrip(rows[k], p);
    }
  }
}

=== FILE: data_model.dfy ===
/** The ledger data model the tools build values of: identifiers, values,
    event filters, triggers, instructions and transactions. Only the
    constructors the tools use are modelled; encoding and signing are not. */
module DataModel {
  import opened Results

  newtype byte = b: int | 0 <= b < 256

  datatype DomainId = DomainId(name: string)

  /** An account `name@domain`. */
  datatype AccountId = AccountId(name: string, domain: DomainId)

  datatype PublicKey = PublicKey(bytes: seq<byte>)

  datatype AssetDefinitionId = AssetDefinitionId(name: string, domain: DomainId)

  datatype AssetId = AssetId(definition: AssetDefinitionId, account: AccountId)

  /** Only the key-value `Store` asset type is ever registered. */
  datatype AssetValueType = Store

  /** Ledger values, one constructor per JVM type the value conversion accepts. */
  datatype Value =
    | StringValue(text: string)
    | LongValue(number: int)
    | IntValue(number: int)
    | BigIntegerValue(number: int)
    | BoolValue(flag: bool)

  /** A ledger duration: whole seconds plus nanoseconds. */
  datatype Duration = Duration(seconds: int, nanos: int)

  datatype AccountEventFilter = ByMetadataInserted

  datatype EventsFilter =
    | TimeFilter(start: Duration, period: Duration)
    | DataByAccount(origin: Option<AccountId>, event: AccountEventFilter)

  datatype Repeats = Indefinitely | Exactly(count: int)

  type Metadata = map<string, Value>

  /** What a trigger runs (the WASM bytes), how often, as whom, and on which events. */
  datatype Action = Action(
    executable: seq<byte>,
    repeats: Repeats,
    technicalAccount: AccountId,
    filter: EventsFilter,
    metadata: Metadata)

  datatype Trigger = Trigger(id: string, action: Action)

  datatype Instruction =
    | RegisterDomain(domain: DomainId)
    | RegisterAccount(account: AccountId, signatories: seq<PublicKey>)
    | RegisterAsset(definition: AssetDefinitionId, valueType: AssetValueType)
    | SetKeyValueDefinition(definition: AssetDefinitionId, key: string, value: Value)
    | SetKeyValueAsset(asset: AssetId, key: string, value: Value)
    | GrantSetKeyValueAsset(asset: AssetId, grantee: AccountId)
    | RegisterWasmTrigger(trigger: Trigger)
    | UnregisterTrigger(triggerId: string)

  /** A transaction submitted on behalf of `account`; its instructions run in order. */
  datatype Transaction = Transaction(account: AccountId, instructions: seq<Instruction>)
}

=== FILE: helper.dfy ===
/** The trigger migration: enumerate WASM files, check them against the
    triggers on the ledger, then for each file submit one transaction that
    unregisters and/or registers its trigger, depending on the mode.
    Queries and submissions are recorded as steps of a log; the ledger is
    the registry of `TriggerLedger`, changed by each accepted transaction. */
module Helper {
  import opened Results
  import opened Sequences
  import opened Jvm
  import opened DataModel
  import opened TriggerLedger
  import opened Triggers
  import opened WasmFiles
  import opened MigrationError

  /** The file name without its ".wasm" suffix: the trigger name or prefix. */
  function StrippedName(u: Unit): string {
    RemoveSuffix(u.key, WasmSuffix)
  }

  function StrippedNames(files: seq<Unit>): (names: seq<string>)
    ensures |names| == |files|
    ensures forall i :: 0 <= i < |files| ==> names[i] == StrippedName(files[i])
  {
    seq(|files|, i requires 0 <= i < |files| => StrippedName(files[i]))
  }

  /** The existing ids that start with `prefix`, in the order the ledger
      listed them (each as often as it was listed: `IdsByPrefixCounts`). */
  function IdsByPrefix(ids: seq<string>, prefix: string): (r: seq<string>)
    ensures forall id :: id in r <==> id in ids && StartsWith(id, prefix)
    ensures Subsequence(r, ids)
    ensures |r| > 0 ==> exists j :: 0 <= j < |ids| && ids[j] == r[0] &&
                                  (forall k :: 0 <= k < j ==> !StartsWith(ids[k], prefix))
  {
    if |ids| == 0 then []
    else
      var rest := IdsByPrefix(ids[1..], prefix);
      assert ids == [ids[0]] + ids[1..];
      if StartsWith(ids[0], prefix) then
        assert ([ids[0]] + rest)[1..] == rest;
        [ids[0]] + rest
      else
        if |rest| == 0 then rest
        else EarliestSkipsHead(ids, prefix, rest[0]); rest
  }

  /** `IdsByPrefix` keeps every matching id as many times as the ledger
      listed it, and no other id. */
  lemma {:induction false} IdsByPrefixCounts(ids: seq<string>, prefix: string)
    ensures forall id :: multiset(IdsByPrefix(ids, prefix))[id] ==
                         if StartsWith(id, prefix) then multiset(ids)[id] else 0
    decreases |ids|
  {
    if |ids| > 0 {
      var rest := IdsByPrefix(ids[1..], prefix);
      IdsByPrefixCounts(ids[1..], prefix);
      assert ids == [ids[0]] + ids[1..];
      assert multiset(ids) == multiset{ids[0]} + multiset(ids[1..]);
      if StartsWith(ids[0], prefix) {
        assert multiset([ids[0]] + rest) == multiset{ids[0]} + multiset(rest);
      }
    }
  }

  /** An earliest match in the tail of `ids` is an earliest match in `ids`
      when the head does not match. */
  lemma EarliestSkipsHead(ids: seq<string>, prefix: string, first: string)
    requires |ids| > 0 && !StartsWith(ids[0], prefix)
    requires exists j :: 0 <= j < |ids[1..]| && ids[1..][j] == first &&
                         (forall k :: 0 <= k < j ==> !StartsWith(ids[1..][k], prefix))
    ensures exists j :: 0 <= j < |ids| && ids[j] == first &&
                        (forall k :: 0 <= k < j ==> !StartsWith(ids[k], prefix))
  {
    var j :| 0 <= j < |ids[1..]| && ids[1..][j] == first &&
      forall k :: 0 <= k < j ==> !StartsWith(ids[1..][k], prefix);
    assert ids[j + 1] == first;
    assert forall k :: 0 < k < j + 1 ==> ids[k] == ids[1..][k - 1];
  }

  /** Kotlin's `ids.any { id -> id.startsWith(n) }`. */
  predicate AnyStartsWith(ids: seq<string>, n: string) {
    exists id :: id in ids && StartsWith(id, n)
  }

  /** Kotlin's `names.all { n -> ids.any { id -> id.startsWith(n) } }`. */
  predicate AllKnown(names: seq<string>, ids: seq<string>) {
    forall n :: n in names ==> AnyStartsWith(ids, n)
  }

  /** The repeat policy of a new trigger: 0 means indefinitely, 1 means
      exactly once; every other value, the default -1 included, is refused. */
  function GetRepeats(repeats: int): (r: Result<Repeats, Error>)
    ensures r == Ok(Indefinitely) <==> repeats == 0
    ensures r == Ok(Exactly(1)) <==> repeats == 1
    ensures r.Err? <==> repeats != 0 && repeats != 1
    ensures r.Err? ==> r.error == UnsupportedRepeats(repeats)
  {
    var kind :- RepeatsFrom(repeats);
    match kind
    case RepeatsIndefinitely => Ok(Indefinitely)
    case RepeatsExactly => Ok(Exactly(repeats))
  }

  /** The event filter of a new trigger. Type 0 is a time filter whose period
      is the argument read as a number; type 1 listens to metadata insertions
      into any account. */
  function GetFilter(triggerType: int, triggerArgument: string, nowMillis: int,
                     toLong: string -> Option<int>): (r: Result<EventsFilter, Error>)
    ensures r.Ok? <==> triggerType == 1 || (triggerType == 0 && toLong(triggerArgument).Some?)
    ensures triggerType != 0 && triggerType != 1 ==> r == Err(UnsupportedTriggerType(triggerType))
    ensures triggerType == 0 && toLong(triggerArgument).None? ==> r == Err(NumberFormat(triggerArgument))
    ensures triggerType == 0 && r.Ok? ==>
      r.value.TimeFilter? && r.value.period == Duration(toLong(triggerArgument).value, 0) &&
      r.value == GetTimeTrigger(toLong(triggerArgument).value, nowMillis)
    ensures triggerType == 1 ==> r.Ok? && r.value.DataByAccount? && r.value.origin.None?
  {
    var kind :- TriggerTypeFrom(triggerType);
    match kind
    case Time =>
      (match toLong(triggerArgument)
       case None => Err(NumberFormat(triggerArgument))
       case Some(interval) => Ok(GetTimeTrigger(interval, nowMillis)))
    case DataByAccountMetadata => Ok(GetDataTriggerByAccountMetadataInserted(None))
  }

  /** The caller's options for a new trigger, with the platform services the
      tool calls: the wall clock, `String.toLong` and the account-id parser. */
  datatype Settings = Settings(
    repeats: int,
    triggerType: int,
    technicalAccount: string,
    triggerArgument: string,
    nowMillis: int,
    toLong: string -> Option<int>,
    asAccountId: string -> Option<AccountId>)

  /** The settings when the caller passes none of the optional options. */
  function DefaultSettings(nowMillis: int, toLong: string -> Option<int>,
                           asAccountId: string -> Option<AccountId>): (s: Settings)
    ensures s.repeats == -1 && s.triggerType == -1
    ensures s.technicalAccount == "" && s.triggerArgument == ""
  {
    Settings(-1, -1, "", "", nowMillis, toLong, asAccountId)
  }

  /** The technical account option parsed as an account id. */
  function TechnicalAccount(s: Settings): (r: Result<AccountId, Error>)
    ensures r.Ok? <==> s.asAccountId(s.technicalAccount).Some?
    ensures r.Ok? ==> r.value == s.asAccountId(s.technicalAccount).value
    ensures r.Err? ==> r.error == MalformedAccountId(s.technicalAccount)
  {
    match s.asAccountId(s.technicalAccount)
    case None => Err(MalformedAccountId(s.technicalAccount))
    case Some(a) => Ok(a)
  }

  /** The trigger Register mode creates for a file: named after the file,
      running its bytes, with empty metadata. The options are checked in the
      order repeats, technical account, trigger type and argument. */
  function NewTrigger(u: Unit, s: Settings): (r: Result<Trigger, Error>)
    ensures r.Ok? <==>
      GetRepeats(s.repeats).Ok? && TechnicalAccount(s).Ok? &&
      GetFilter(s.triggerType, s.triggerArgument, s.nowMillis, s.toLong).Ok?
    ensures r.Ok? ==>
      && r.value.id == StrippedName(u)
      && r.value.action.executable == u.file.content
      && r.value.action.metadata == map[]
      && r.value.action.repeats == GetRepeats(s.repeats).value
      && r.value.action.filter == GetFilter(s.triggerType, s.triggerArgument, s.nowMillis, s.toLong).value
    ensures r.Ok? ==> r.value.action.technicalAccount == TechnicalAccount(s).value
    ensures GetRepeats(s.repeats).Err? ==> r == Err(UnsupportedRepeats(s.repeats))
    ensures GetRepeats(s.repeats).Ok? && TechnicalAccount(s).Err? ==>
      r == Err(MalformedAccountId(s.technicalAccount))
    ensures var filter := GetFilter(s.triggerType, s.triggerArgument, s.nowMillis, s.toLong);
      GetRepeats(s.repeats).Ok? && TechnicalAccount(s).Ok? && filter.Err? ==> r == Err(filter.error)
  {
    var repeats :- GetRepeats(s.repeats);
    var account :- TechnicalAccount(s);
    var filter :- GetFilter(s.triggerType, s.triggerArgument, s.nowMillis, s.toLong);
    Ok(Trigger(StrippedName(u), Action(u.file.content, repeats, account, filter, map[])))
  }

  /** What the migration sends to the node, in order. */
  datatype Step =
    | QueryActiveTriggerIds
    | QueryTriggerById(id: string)
    | SubmitTransaction(tx: Transaction)

  /** The outcome of (part of) a migration: the steps issued, the ledger
      afterwards, and the value or the error that ended it. */
  datatype Run<+T> = Run(log: seq<Step>, ledger: Ledger, result: Result<T, Error>)

  /** The transactions a log submitted, in order. */
  function Submitted(log: seq<Step>): (txs: seq<Transaction>)
    ensures |txs| <= |log|
    ensures forall tx :: tx in txs <==> SubmitTransaction(tx) in log
  {
    if |log| == 0 then []
    else
      assert log == [log[0]] + log[1..];
      (if log[0].SubmitTransaction? then [log[0].tx] else []) + Submitted(log[1..])
  }

  lemma {:induction false} SubmittedAppend(a: seq<Step>, b: seq<Step>)
    ensures Submitted(a + b) == Submitted(a) + Submitted(b)
  {
    if |a| > 0 {
      assert (a + b)[0] == a[0];
      assert (a + b)[1..] == a[1..] + b;
      SubmittedAppend(a[1..], b);
    } else {
      assert a + b == b;
    }
  }

  /** The id query submits nothing. */
  lemma SubmittedAfterQuery(log: seq<Step>)
    ensures Submitted([QueryActiveTriggerIds] + log) == Submitted(log)
  {
    SubmittedAppend([QueryActiveTriggerIds], log);
    assert Submitted([QueryActiveTriggerIds]) == [];
  }

  /** The instruction is about the trigger `id`. */
  predicate Touches(isi: Instruction, id: string) {
    || (isi.UnregisterTrigger? && isi.triggerId == id)
    || (isi.RegisterWasmTrigger? && isi.trigger.id == id)
  }

  /** The shape of the transaction a mode submits for trigger `id`: signed by
      the admin, only about `id`, an unregister exactly in Default and
      Unregister mode, a register exactly in Default and Register mode, and
      the unregister first. */
  predicate ShapedFor(tx: Transaction, mode: Mode, admin: AccountId, id: string) {
    var isis := tx.instructions;
    && tx.account == admin
    && (forall i :: 0 <= i < |isis| ==> Touches(isis[i], id))
    && ((exists i :: 0 <= i < |isis| && isis[i].UnregisterTrigger?) <==> mode.Unregisters())
    && ((exists i :: 0 <= i < |isis| && isis[i].RegisterWasmTrigger?) <==> mode.Registers())
    && (forall i, j ::
          0 <= i < |isis| && 0 <= j < |isis| && isis[i].UnregisterTrigger? && isis[j].RegisterWasmTrigger?
          ==> i < j)
  }

  /** The transaction for one file: the register instruction carries the
      resolved trigger's id and action, with the file's bytes as executable. */
  function BuildTransaction(admin: AccountId, mode: Mode, t: Trigger, payload: seq<byte>): (tx: Transaction)
    ensures ShapedFor(tx, mode, admin, t.id)
    ensures |tx.instructions| == (if mode.Unregisters() then 1 else 0) + (if mode.Registers() then 1 else 0)
    ensures forall i :: 0 <= i < |tx.instructions| && tx.instructions[i].RegisterWasmTrigger? ==>
      tx.instructions[i].trigger == Trigger(t.id, t.action.(executable := payload))
  {
    var unregister := if mode.Unregisters() then [UnregisterTrigger(t.id)] else [];
    var register := if mode.Registers() then [RegisterWasmTrigger(Trigger(t.id, t.action.(executable := payload)))] else [];
    var tx := Transaction(admin, unregister + register);
    assert mode.Unregisters() ==> tx.instructions[0].UnregisterTrigger?;
    assert mode.Registers() ==> tx.instructions[|tx.instructions| - 1].RegisterWasmTrigger?;
    tx
  }

  /** What one file's transaction does to the ledger: it is accepted exactly
      when the trigger exists (Default, Unregister) or does not (Register),
      and then removes and/or adds that one id. */
  lemma SubmitBuilt(l: Ledger, admin: AccountId, mode: Mode, t: Trigger, payload: seq<byte>)
    ensures var r := Submit(l, BuildTransaction(admin, mode, t, payload));
      && (mode.Unregisters() ==> (r.Ok? <==> t.id in IdSet(l)))
      && (mode.Register? ==> (r.Ok? <==> t.id !in IdSet(l)))
      && (r.Ok? ==>
            IdSet(r.value) ==
            (IdSet(l) - (if mode.Unregisters() then {t.id} else {})) + (if mode.Registers() then {t.id} else {}))
      && (r.Ok? && mode.Registers() ==>
            Find(r.value, t.id) == Some(Trigger(t.id, t.action.(executable := payload))))
  {
    var isis := BuildTransaction(admin, mode, t, payload).instructions;
    var reg := Trigger(t.id, t.action.(executable := payload));
    match mode
    case Default =>
      assert isis == [UnregisterTrigger(t.id), RegisterWasmTrigger(reg)];
      ExecuteAllPair(l, UnregisterTrigger(t.id), RegisterWasmTrigger(reg));
    case Unregister =>
      assert isis == [UnregisterTrigger(t.id)];
      ExecuteAllSingle(l, UnregisterTrigger(t.id));
    case Register =>
      assert isis == [RegisterWasmTrigger(reg)];
      ExecuteAllSingle(l, RegisterWasmTrigger(reg));
  }

  /** Resolving the trigger for one file (`getTrigger`). Default and
      Unregister mode take the first existing id the stripped name is a
      prefix of and fetch that trigger from the ledger; Register mode refuses
      a name that is a prefix of an existing id and otherwise builds a new
      trigger. Nothing is submitted. */
  function GetTrigger(u: Unit, mode: Mode, triggerIds: seq<string>, ledger: Ledger, s: Settings): (r: Run<Trigger>)
    requires mode.Unregisters() ==> AnyStartsWith(triggerIds, StrippedName(u))
    ensures r.ledger == ledger
    ensures Submitted(r.log) == []
    ensures mode.Unregisters() ==>
      && |IdsByPrefix(triggerIds, StrippedName(u))| > 0
      && r.log == [QueryTriggerById(IdsByPrefix(triggerIds, StrippedName(u))[0])]
      && r.log[0].id in triggerIds && StartsWith(r.log[0].id, StrippedName(u))
      && (r.result.Ok? <==> r.log[0].id in IdSet(ledger))
      && (r.result.Ok? ==> r.result.value.id == r.log[0].id && r.result.value in ledger)
      && (r.result.Err? ==> r.result.error == TriggerNotFound(r.log[0].id))
    ensures mode.Register? ==> r.log == []
    ensures mode.Register? && AnyStartsWith(triggerIds, StrippedName(u)) ==>
      r.result == Err(TriggerAlreadyExists(IdsByPrefix(triggerIds, StrippedName(u))))
    ensures mode.Register? && !AnyStartsWith(triggerIds, StrippedName(u)) ==>
      r.result == NewTrigger(u, s)
  {
    var name := StrippedName(u);
    var matching := IdsByPrefix(triggerIds, name);
    if mode.Unregisters() then
      var id := matching[0];
      var found := Find(ledger, id);
      Run([QueryTriggerById(id)], ledger, if found.Some? then Ok(found.value) else Err(TriggerNotFound(id)))
    else if |matching| > 0 then
      Run([], ledger, Err(TriggerAlreadyExists(matching)))
    else
      Run([], ledger, NewTrigger(u, s))
  }

  /** One file: resolve its trigger, submit its transaction, report the id. */
  function ProcessUnit(u: Unit, mode: Mode, admin: AccountId, triggerIds: seq<string>,
                       ledger: Ledger, s: Settings): (r: Run<string>)
    requires mode.Unregisters() ==> AnyStartsWith(triggerIds, StrippedName(u))
    ensures r.result.Err? ==> r.ledger == ledger
    ensures |Submitted(r.log)| <= 1
    ensures r.result.Ok? ==>
      |Submitted(r.log)| == 1 && ShapedFor(Submitted(r.log)[0], mode, admin, r.result.value)
    ensures r.result.Ok? && mode.Unregisters() ==>
      && r.result.value == IdsByPrefix(triggerIds, StrippedName(u))[0]
      && r.result.value in triggerIds
      && StartsWith(r.result.value, StrippedName(u))
      && r.result.value in IdSet(ledger)
    ensures r.result.Ok? && mode.Register? ==>
      r.result.value == StrippedName(u) && r.result.value !in IdSet(ledger)
    ensures r.result.Ok? ==>
      IdSet(r.ledger) ==
      (IdSet(ledger) - (if mode.Unregisters() then {r.result.value} else {})) +
      (if mode.Registers() then {r.result.value} else {})
    ensures r.result.Ok? && mode.Registers() ==>
      Find(r.ledger, r.result.value).Some? &&
      Find(r.ledger, r.result.value).value.action.executable == u.file.content
    ensures mode.Unregisters() ==>
      (r.result.Ok? <==> IdsByPrefix(triggerIds, StrippedName(u))[0] in IdSet(ledger))
  {
    var resolved := GetTrigger(u, mode, triggerIds, ledger, s);
    match resolved.result
    case Err(e) => Run(resolved.log, ledger, Err(e))
    case Ok(t) =>
      var tx := BuildTransaction(admin, mode, t, u.file.content);
      var log := resolved.log + [SubmitTransaction(tx)];
      SubmitBuilt(ledger, admin, mode, t, u.file.content);
      SubmittedAppend(resolved.log, [SubmitTransaction(tx)]);
      assert Submitted([SubmitTransaction(tx)]) == [tx];
      match Submit(ledger, tx)
      case Err(rejection) => Run(log, ledger, Err(TransactionRejected(rejection)))
      case Ok(next) => Run(log, next, Ok(t.id))
  }

  /** The files in order, each after the previous one's transaction was
      accepted; the first failure ends the run and keeps what came before. */
  function ProcessUnits(units: seq<Unit>, mode: Mode, admin: AccountId, triggerIds: seq<string>,
                        ledger: Ledger, s: Settings): (r: Run<seq<string>>)
    requires mode.Unregisters() ==> forall i :: 0 <= i < |units| ==> AnyStartsWith(triggerIds, StrippedName(units[i]))
    ensures r.result.Ok? ==> |r.result.value| == |units| && |Submitted(r.log)| == |units|
    ensures |Submitted(r.log)| <= |units|
    decreases |units|
  {
    if |units| == 0 then Run([], ledger, Ok([]))
    else
      var head := ProcessUnit(units[0], mode, admin, triggerIds, ledger, s);
      match head.result
      case Err(e) => Run(head.log, head.ledger, Err(e))
      case Ok(id) =>
        var tail := ProcessUnits(units[1..], mode, admin, triggerIds, head.ledger, s);
        SubmittedAppend(head.log, tail.log);
        Run(head.log + tail.log, tail.ledger,
            match tail.result
            case Ok(ids) => Ok([id] + ids)
            case Err(e) => Err(e))
  }

  /** Where the files come from: the path as given, the entry for the path
      itself, and the entries a recursive walk from it yields. */
  datatype Source = Source(path: string, root: FileEntry, walk: seq<FileEntry>)

  /** The whole migration (`Helper.update`). No files: fail before any query.
      Otherwise list the active trigger ids once; in Default and Unregister
      mode fail, before any submission, unless every stripped file name is a
      prefix of some id; then process the files in order and return the id of
      each one's trigger. */
  function Update(source: Source, admin: AccountId, mode: Mode, ledger: Ledger, s: Settings): (r: Run<seq<string>>)
    ensures var files := GetWasmFiles(mode, source.root, source.walk);
      |files| == 0 ==> r == Run([], ledger, Err(InputNotFound(source.path)))
    ensures var files := GetWasmFiles(mode, source.root, source.walk);
      |files| > 0 ==> |r.log| > 0 && r.log[0] == QueryActiveTriggerIds
    ensures var files := GetWasmFiles(mode, source.root, source.walk);
      var names := StrippedNames(files);
      |files| > 0 && mode.Unregisters() && !AllKnown(names, Ids(ledger)) ==>
        r == Run([QueryActiveTriggerIds], ledger, Err(UnknownTrigger(Ids(ledger), names)))
  {
    var files := GetWasmFiles(mode, source.root, source.walk);
    if |files| == 0 then Run([], ledger, Err(InputNotFound(source.path)))
    else
      var triggerIds := Ids(ledger);
      var names := StrippedNames(files);
      if mode.Unregisters() && !AllKnown(names, triggerIds) then
        Run([QueryActiveTriggerIds], ledger, Err(UnknownTrigger(triggerIds, names)))
      else
        assert mode.Unregisters() ==> forall i :: 0 <= i < |files| ==> AnyStartsWith(triggerIds, StrippedName(files[i])) by {
          if mode.Unregisters() {
            forall i | 0 <= i < |files| ensures AnyStartsWith(triggerIds, StrippedName(files[i])) {
              assert names[i] in names;
            }
          }
        }
        var rest := ProcessUnits(files, mode, admin, triggerIds, ledger, s);
        Run([QueryActiveTriggerIds] + rest.log, rest.ledger, rest.result)
  }
}

=== FILE: helper_properties.dfy ===
/** What a migration run does, per mode, to the submitted transactions, the
    returned ids and the set of trigger ids on the ledger. */
module HelperProperties {
  import opened Results
  import opened Sequences
  import opened Jvm
  import opened DataModel
  import opened TriggerLedger
  import opened Triggers
  import opened WasmFiles
  import opened MigrationError
  import opened Helper

  /** `id` is the trigger resolved for file `u`: the first id, in query
      order, that the stripped name is a prefix of (Default, Unregister), or
      the stripped name itself (Register). */
  predicate Resolves(u: Unit, mode: Mode, triggerIds: seq<string>, id: string) {
    && (mode.Unregisters() ==>
          && |IdsByPrefix(triggerIds, StrippedName(u))| > 0
          && id == IdsByPrefix(triggerIds, StrippedName(u))[0]
          && id in triggerIds && StartsWith(id, StrippedName(u)))
    && (mode.Register? ==> id == StrippedName(u))
  }

  predicate Distinct(ids: seq<string>) {
    forall i, j :: 0 <= i < j < |ids| ==> ids[i] != ids[j]
  }

  function Elements(ids: seq<string>): set<string> {
    set id | id in ids
  }

  /** The i-th transaction is the i-th file's, about the i-th id (stated
      file by file; `AllShapedAt` gives the positional reading). */
  predicate AllShaped(units: seq<Unit>, mode: Mode, admin: AccountId, triggerIds: seq<string>,
                      txs: seq<Transaction>, ids: seq<string>)
    decreases |units|
  {
    && |txs| == |units|
    && |ids| == |units|
    && (|units| > 0 ==>
          && ShapedFor(txs[0], mode, admin, ids[0])
          && Resolves(units[0], mode, triggerIds, ids[0])
          && AllShaped(units[1..], mode, admin, triggerIds, txs[1..], ids[1..]))
  }

  /** The positional reading of `AllShaped`. */
  lemma {:induction false} AllShapedAt(units: seq<Unit>, mode: Mode, admin: AccountId, triggerIds: seq<string>,
                                       txs: seq<Transaction>, ids: seq<string>, i: int)
    requires AllShaped(units, mode, admin, triggerIds, txs, ids)
    requires 0 <= i < |units|
    ensures |txs| == |units| == |ids|
    ensures ShapedFor(txs[i], mode, admin, ids[i]) && Resolves(units[i], mode, triggerIds, ids[i])
    decreases |units|
  {
    if i > 0 {
      AllShapedAt(units[1..], mode, admin, triggerIds, txs[1..], ids[1..], i - 1);
    }
  }

  lemma AllShapedCons(units: seq<Unit>, mode: Mode, admin: AccountId, triggerIds: seq<string>,
                      tx: Transaction, id: string, txs: seq<Transaction>, ids: seq<string>)
    requires |units| > 0
    requires ShapedFor(tx, mode, admin, id) && Resolves(units[0], mode, triggerIds, id)
    requires AllShaped(units[1..], mode, admin, triggerIds, txs, ids)
    ensures AllShaped(units, mode, admin, triggerIds, [tx] + txs, [id] + ids)
  {
    assert ([tx] + txs)[1..] == txs;
    assert ([id] + ids)[1..] == ids;
  }

  /** A successful run returns one id per file, in file order, and submitted
      exactly one transaction per file, the i-th only about the i-th id and
      shaped by the mode. */
  lemma {:induction false} ProcessUnitsShape(units: seq<Unit>, mode: Mode, admin: AccountId,
                                             triggerIds: seq<string>, ledger: Ledger, s: Settings)
    requires mode.Unregisters() ==> forall i :: 0 <= i < |units| ==> AnyStartsWith(triggerIds, StrippedName(units[i]))
    ensures var r := ProcessUnits(units, mode, admin, triggerIds, ledger, s);
      r.result.Ok? ==> AllShaped(units, mode, admin, triggerIds, Submitted(r.log), r.result.value)
    decreases |units|
  {
    if |units| > 0 {
      var head := ProcessUnit(units[0], mode, admin, triggerIds, ledger, s);
      if head.result.Ok? {
        var tx := ProcessUnitShaped(units[0], mode, admin, triggerIds, ledger, s);
        var tail := ProcessUnits(units[1..], mode, admin, triggerIds, head.ledger, s);
        ProcessUnitsShape(units[1..], mode, admin, triggerIds, head.ledger, s);
        if tail.result.Ok? {
          ShapedStep(units, mode, admin, triggerIds, head, tail, tx);
        }
      }
    }
  }

  /** A shaped first file followed by a shaped rest of the run. */
  lemma ShapedStep(units: seq<Unit>, mode: Mode, admin: AccountId, triggerIds: seq<string>,
                   head: Run<string>, tail: Run<seq<string>>, tx: Transaction)
    requires |units| > 0 && head.result.Ok? && tail.result.Ok?
    requires Submitted(head.log) == [tx] && ShapedFor(tx, mode, admin, head.result.value)
    requires Resolves(units[0], mode, triggerIds, head.result.value)
    requires AllShaped(units[1..], mode, admin, triggerIds, Submitted(tail.log), tail.result.value)
    ensures AllShaped(units, mode, admin, triggerIds, Submitted(head.log + tail.log),
                      [head.result.value] + tail.result.value)
  {
    SubmittedAppend(head.log, tail.log);
    AllShapedCons(units, mode, admin, triggerIds, tx, head.result.value,
                  Submitted(tail.log), tail.result.value);
  }

  /** A file whose run succeeded submitted one transaction, shaped for the
      id resolved for the file. */
  lemma ProcessUnitShaped(u: Unit, mode: Mode, admin: AccountId, triggerIds: seq<string>,
                          ledger: Ledger, s: Settings) returns (tx: Transaction)
    requires mode.Unregisters() ==> AnyStartsWith(triggerIds, StrippedName(u))
    requires ProcessUnit(u, mode, admin, triggerIds, ledger, s).result.Ok?
    ensures var r := ProcessUnit(u, mode, admin, triggerIds, ledger, s);
      && Submitted(r.log) == [tx]
      && ShapedFor(tx, mode, admin, r.result.value)
      && Resolves(u, mode, triggerIds, r.result.value)
  {
    var r := ProcessUnit(u, mode, admin, triggerIds, ledger, s);
    tx := Submitted(r.log)[0];
  }

  /** Default mode, once every file resolves to an id that is on the ledger,
      cannot fail, and leaves the set of trigger ids as it was. */
  lemma {:induction false} ProcessUnitsDefault(units: seq<Unit>, admin: AccountId,
                                               triggerIds: seq<string>, ledger: Ledger, s: Settings)
    requires forall i :: 0 <= i < |units| ==> AnyStartsWith(triggerIds, StrippedName(units[i]))
    requires forall id :: id in triggerIds ==> id in IdSet(ledger)
    ensures var r := ProcessUnits(units, Default, admin, triggerIds, ledger, s);
      r.result.Ok? && IdSet(r.ledger) == IdSet(ledger)
    decreases |units|
  {
    if |units| > 0 {
      var head := ProcessUnit(units[0], Default, admin, triggerIds, ledger, s);
      var first := IdsByPrefix(triggerIds, StrippedName(units[0]))[0];
      assert first in triggerIds;
      assert head.result.Ok?;
      assert IdSet(head.ledger) == IdSet(ledger);
      ProcessUnitsDefault(units[1..], admin, triggerIds, head.ledger, s);
    }
  }

  /** Unregister mode: a successful run removed exactly the returned ids,
      each of which was on the ledger, and no id twice (a second file that
      resolves to an id already removed fails). */
  lemma {:induction false} ProcessUnitsUnregister(units: seq<Unit>, admin: AccountId,
                                                  triggerIds: seq<string>, ledger: Ledger, s: Settings)
    requires forall i :: 0 <= i < |units| ==> AnyStartsWith(triggerIds, StrippedName(units[i]))
    ensures var r := ProcessUnits(units, Unregister, admin, triggerIds, ledger, s);
      r.result.Ok? ==>
        && IdSet(r.ledger) == IdSet(ledger) - Elements(r.result.value)
        && Elements(r.result.value) <= IdSet(ledger)
        && Distinct(r.result.value)
    decreases |units|
  {
    if |units| > 0 {
      var head := ProcessUnit(units[0], Unregister, admin, triggerIds, ledger, s);
      if head.result.Ok? {
        var v := head.result.value;
        var tail := ProcessUnits(units[1..], Unregister, admin, triggerIds, head.ledger, s);
        ProcessUnitsUnregister(units[1..], admin, triggerIds, head.ledger, s);
        if tail.result.Ok? {
          RemovedCons(IdSet(ledger), IdSet(head.ledger), IdSet(tail.ledger), v, tail.result.value);
        }
      }
    }
  }

  /** The id each file's run unregisters: the first existing id that starts
      with the file's stripped name. */
  function FirstMatches(units: seq<Unit>, triggerIds: seq<string>): (r: seq<string>)
    requires forall i :: 0 <= i < |units| ==> AnyStartsWith(triggerIds, StrippedName(units[i]))
    ensures |r| == |units|
    ensures forall id :: id in r ==> id in triggerIds
    decreases |units|
  {
    if |units| == 0 then []
    else
      var matches := IdsByPrefix(triggerIds, StrippedName(units[0]));
      assert |matches| > 0 by {
        assert AnyStartsWith(triggerIds, StrippedName(units[0]));
        var id :| id in triggerIds && StartsWith(id, StrippedName(units[0]));
        assert id in matches;
      }
      [matches[0]] + FirstMatches(units[1..], triggerIds)
  }

  /** A sequence with a new head is free of repetitions exactly when its
      tail is and the head is not among the tail's ids. */
  lemma DistinctCons(v: string, rest: seq<string>)
    ensures Distinct([v] + rest) <==> v !in Elements(rest) && Distinct(rest)
    ensures Elements([v] + rest) == {v} + Elements(rest)
  {
    var ids := [v] + rest;
    assert Elements(ids) == {v} + Elements(rest);
    if Distinct(ids) {
      forall i, j | 0 <= i < j < |rest| ensures rest[i] != rest[j] {
        assert rest[i] == ids[i + 1] && rest[j] == ids[j + 1];
      }
      forall k | 0 <= k < |rest| ensures rest[k] != v {
        assert rest[k] == ids[k + 1] && ids[0] == v;
        assert ids[0] != ids[k + 1];
      }
    }
    if v !in Elements(rest) && Distinct(rest) {
      forall i, j | 0 <= i < j < |ids| ensures ids[i] != ids[j] {
        assert ids[j] == rest[j - 1];
        if i > 0 {
          assert ids[i] == rest[i - 1];
        } else {
          assert ids[j] in Elements(rest);
        }
      }
    }
  }

  /** Unregistering `v` from `ids` and then each id of `rest` once is possible
      exactly when `[v] + rest` is free of repetitions and within `ids`. */
  lemma RemovableCons(ids: set<string>, v: string, rest: seq<string>)
    ensures (v in ids && Distinct(rest) && Elements(rest) <= ids - {v}) <==>
            (Distinct([v] + rest) && Elements([v] + rest) <= ids)
  {
    DistinctCons(v, rest);
  }

  /** An Unregister fold succeeds exactly when the files' first matches are
      pairwise distinct and all still on the ledger: each transaction removes
      its id, so a repeated first match fails at its second occurrence. */
  lemma {:induction false} ProcessUnitsUnregisterOk(units: seq<Unit>, admin: AccountId,
                                                    triggerIds: seq<string>, ledger: Ledger, s: Settings)
    requires forall i :: 0 <= i < |units| ==> AnyStartsWith(triggerIds, StrippedName(units[i]))
    ensures ProcessUnits(units, Unregister, admin, triggerIds, ledger, s).result.Ok? <==>
            Distinct(FirstMatches(units, triggerIds)) && Elements(FirstMatches(units, triggerIds)) <= IdSet(ledger)
    decreases |units|
  {
    if |units| > 0 {
      var head := ProcessUnit(units[0], Unregister, admin, triggerIds, ledger, s);
      var v := IdsByPrefix(triggerIds, StrippedName(units[0]))[0];
      var rest := FirstMatches(units[1..], triggerIds);
      assert FirstMatches(units, triggerIds) == [v] + rest;
      RemovableCons(IdSet(ledger), v, rest);
      if head.result.Ok? {
        ProcessUnitsUnregisterOk(units[1..], admin, triggerIds, head.ledger, s);
      } else {
        assert v in Elements([v] + rest);
      }
    }
  }

  /** Removing `v` and then, without repetition, the ids of `rest`. */
  lemma RemovedCons(before: set<string>, middle: set<string>, after: set<string>, v: string, rest: seq<string>)
    requires v in before && middle == before - {v}
    requires after == middle - Elements(rest) && Elements(rest) <= middle && Distinct(rest)
    ensures after == before - Elements([v] + rest)
    ensures Elements([v] + rest) <= before
    ensures Distinct([v] + rest)
  {
    var ids := [v] + rest;
    assert Elements(ids) == {v} + Elements(rest);
    forall i, j | 0 <= i < j < |ids| ensures ids[i] != ids[j] {
      assert ids[j] == rest[j - 1];
      if i > 0 {
        assert ids[i] == rest[i - 1];
      } else {
        assert ids[j] in Elements(rest);
      }
    }
  }

  /** The fold fails at the k-th file: the files before it make a
      successful fold that leaves the final ledger, and the failed run is
      the run over the first k + 1 files alone, so no later file is
      attempted. */
  predicate FailsAt(units: seq<Unit>, mode: Mode, admin: AccountId, triggerIds: seq<string>,
                    ledger: Ledger, s: Settings, k: nat)
    requires mode.Unregisters() ==> forall i :: 0 <= i < |units| ==> AnyStartsWith(triggerIds, StrippedName(units[i]))
  {
    && k < |units|
    && var r := ProcessUnits(units, mode, admin, triggerIds, ledger, s);
       var pre := ProcessUnits(units[..k], mode, admin, triggerIds, ledger, s);
       && r.result.Err?
       && pre.result.Ok?
       && r.ledger == pre.ledger
       && r == ProcessUnits(units[..k + 1], mode, admin, triggerIds, ledger, s)
  }

  /** A failing first file is where the fold fails. */
  lemma FailsAtFirst(units: seq<Unit>, mode: Mode, admin: AccountId, triggerIds: seq<string>,
                     ledger: Ledger, s: Settings)
    requires mode.Unregisters() ==> forall i :: 0 <= i < |units| ==> AnyStartsWith(triggerIds, StrippedName(units[i]))
    requires |units| > 0
    requires ProcessUnit(units[0], mode, admin, triggerIds, ledger, s).result.Err?
    ensures FailsAt(units, mode, admin, triggerIds, ledger, s, 0)
  {
    PrefixTail(units, 1);
    assert units[..0] == [];
  }

  /** A failure after a successful first file is the tail's failure, one
      position later. */
  lemma FailsAtCons(units: seq<Unit>, mode: Mode, admin: AccountId, triggerIds: seq<string>,
                    ledger: Ledger, s: Settings, k: nat)
    requires mode.Unregisters() ==> forall i :: 0 <= i < |units| ==> AnyStartsWith(triggerIds, StrippedName(units[i]))
    requires |units| > 0
    requires ProcessUnit(units[0], mode, admin, triggerIds, ledger, s).result.Ok?
    requires FailsAt(units[1..], mode, admin, triggerIds, ProcessUnit(units[0], mode, admin, triggerIds, ledger, s).ledger, s, k)
    ensures FailsAt(units, mode, admin, triggerIds, ledger, s, k + 1)
  {
    PrefixTail(units, k + 1);
    PrefixTail(units, k + 2);
  }

  /** A fold that fails after a successful first file fails in the rest. */
  lemma TailFails(units: seq<Unit>, mode: Mode, admin: AccountId, triggerIds: seq<string>,
                  ledger: Ledger, s: Settings)
    requires mode.Unregisters() ==> forall i :: 0 <= i < |units| ==> AnyStartsWith(triggerIds, StrippedName(units[i]))
    requires ProcessUnits(units, mode, admin, triggerIds, ledger, s).result.Err?
    requires ProcessUnit(units[0], mode, admin, triggerIds, ledger, s).result.Ok?
    ensures mode.Unregisters() ==> forall i :: 0 <= i < |units[1..]| ==> AnyStartsWith(triggerIds, StrippedName(units[1..][i]))
    ensures ProcessUnits(units[1..], mode, admin, triggerIds,
                         ProcessUnit(units[0], mode, admin, triggerIds, ledger, s).ledger, s).result.Err?
  {
  }

  /** Every failed fold fails at some file. */
  lemma {:induction false} FailurePrefix(units: seq<Unit>, mode: Mode, admin: AccountId,
                                         triggerIds: seq<string>, ledger: Ledger, s: Settings) returns (k: nat)
    requires mode.Unregisters() ==> forall i :: 0 <= i < |units| ==> AnyStartsWith(triggerIds, StrippedName(units[i]))
    requires ProcessUnits(units, mode, admin, triggerIds, ledger, s).result.Err?
    ensures FailsAt(units, mode, admin, triggerIds, ledger, s, k)
    decreases |units|, 1
  {
    if ProcessUnit(units[0], mode, admin, triggerIds, ledger, s).result.Err? {
      FailsAtFirst(units, mode, admin, triggerIds, ledger, s);
      k := 0;
    } else {
      k := FailureAfterFirst(units, mode, admin, triggerIds, ledger, s);
    }
  }

  /** The inductive step of `FailurePrefix`: the first file succeeded, so
      the failure lies in the rest. */
  lemma {:induction false} FailureAfterFirst(units: seq<Unit>, mode: Mode, admin: AccountId,
                                             triggerIds: seq<string>, ledger: Ledger, s: Settings) returns (k: nat)
    requires mode.Unregisters() ==> forall i :: 0 <= i < |units| ==> AnyStartsWith(triggerIds, StrippedName(units[i]))
    requires ProcessUnits(units, mode, admin, triggerIds, ledger, s).result.Err?
    requires ProcessUnit(units[0], mode, admin, triggerIds, ledger, s).result.Ok?
    ensures FailsAt(units, mode, admin, triggerIds, ledger, s, k)
    decreases |units|, 0
  {
    var head := ProcessUnit(units[0], mode, admin, triggerIds, ledger, s);
    TailFails(units, mode, admin, triggerIds, ledger, s);
    var k' := FailurePrefix(units[1..], mode, admin, triggerIds, head.ledger, s);
    FailsAtCons(units, mode, admin, triggerIds, ledger, s, k');
    k := k' + 1;
  }

  /** What a failed fold leaves behind: the files before the failing one
      were all accepted, one id and one submission each, and the ledger they
      produced is the final one; at most the failing file's own transaction
      was sent besides. */
  lemma StopsAtFirstFailure(units: seq<Unit>, mode: Mode, admin: AccountId,
                            triggerIds: seq<string>, ledger: Ledger, s: Settings) returns (k: nat)
    requires mode.Unregisters() ==> forall i :: 0 <= i < |units| ==> AnyStartsWith(triggerIds, StrippedName(units[i]))
    requires ProcessUnits(units, mode, admin, triggerIds, ledger, s).result.Err?
    ensures FailsAt(units, mode, admin, triggerIds, ledger, s, k)
    ensures var r := ProcessUnits(units, mode, admin, triggerIds, ledger, s);
      var pre := ProcessUnits(units[..k], mode, admin, triggerIds, ledger, s);
      && |pre.result.value| == k
      && |Submitted(pre.log)| == k
      && |Submitted(r.log)| <= k + 1
  {
    k := FailurePrefix(units, mode, admin, triggerIds, ledger, s);
  }

  /** Every stripped name passed the validation: each file may be resolved. */
  lemma KnownNamesResolve(files: seq<Unit>, triggerIds: seq<string>)
    requires AllKnown(StrippedNames(files), triggerIds)
    ensures forall i :: 0 <= i < |files| ==> AnyStartsWith(triggerIds, StrippedName(files[i]))
  {
    var names := StrippedNames(files);
    forall i | 0 <= i < |files| ensures AnyStartsWith(triggerIds, StrippedName(files[i])) {
      assert names[i] in names;
    }
  }

  /** Once there are files and, in the unregistering modes, every stripped
      name is known, the run is the id query followed by the files' fold. */
  lemma UpdateProceeds(source: Source, admin: AccountId, mode: Mode, ledger: Ledger, s: Settings)
    requires |GetWasmFiles(mode, source.root, source.walk)| > 0
    requires mode.Unregisters() ==> AllKnown(StrippedNames(GetWasmFiles(mode, source.root, source.walk)), Ids(ledger))
    ensures var files := GetWasmFiles(mode, source.root, source.walk);
      mode.Unregisters() ==> forall i :: 0 <= i < |files| ==> AnyStartsWith(Ids(ledger), StrippedName(files[i]))
    ensures var files := GetWasmFiles(mode, source.root, source.walk);
      var rest := ProcessUnits(files, mode, admin, Ids(ledger), ledger, s);
      Update(source, admin, mode, ledger, s) == Run([QueryActiveTriggerIds] + rest.log, rest.ledger, rest.result)
  {
    var files := GetWasmFiles(mode, source.root, source.walk);
    if mode.Unregisters() {
      KnownNamesResolve(files, Ids(ledger));
    }
  }

  /** A successful migration returns one id per file in the order the files
      were enumerated; the i-th submitted transaction is the i-th file's, is
      signed by the admin, is only about the i-th returned id, and holds an
      unregister and/or a register as the mode says, unregister first. */
  lemma UpdateShape(source: Source, admin: AccountId, mode: Mode, ledger: Ledger, s: Settings)
    ensures var r := Update(source, admin, mode, ledger, s);
      var files := GetWasmFiles(mode, source.root, source.walk);
      r.result.Ok? ==> AllShaped(files, mode, admin, Ids(ledger), Submitted(r.log), r.result.value)
  {
    var files := GetWasmFiles(mode, source.root, source.walk);
    if |files| > 0 && (!mode.Unregisters() || AllKnown(StrippedNames(files), Ids(ledger))) {
      UpdateProceeds(source, admin, mode, ledger, s);
      var rest := ProcessUnits(files, mode, admin, Ids(ledger), ledger, s);
      ProcessUnitsShape(files, mode, admin, Ids(ledger), ledger, s);
      SubmittedAfterQuery(rest.log);
      var r := Update(source, admin, mode, ledger, s);
      assert r.log == [QueryActiveTriggerIds] + rest.log && r.result == rest.result;
    }
  }

  /** Default mode succeeds exactly when there are files and each stripped
      file name is a prefix of some existing id, and a success leaves the set
      of trigger ids unchanged: every trigger touched is re-registered. */
  lemma UpdateDefault(source: Source, admin: AccountId, ledger: Ledger, s: Settings)
    ensures var r := Update(source, admin, Default, ledger, s);
      var files := GetWasmFiles(Default, source.root, source.walk);
      && (r.result.Ok? <==> |files| > 0 && AllKnown(StrippedNames(files), Ids(ledger)))
      && (r.result.Ok? ==> IdSet(r.ledger) == IdSet(ledger))
  {
    var files := GetWasmFiles(Default, source.root, source.walk);
    if |files| > 0 && AllKnown(StrippedNames(files), Ids(ledger)) {
      KnownNamesResolve(files, Ids(ledger));
      forall id | id in Ids(ledger) ensures id in IdSet(ledger) {
        IdsMembership(ledger, id);
      }
      ProcessUnitsDefault(files, admin, Ids(ledger), ledger, s);
    }
  }

  /** When every file is known, a Default run succeeds, and running it again
      on the same files right after succeeds too and still keeps the set of
      trigger ids. */
  lemma DefaultRerun(source: Source, admin: AccountId, ledger: Ledger, s: Settings)
    requires var files := GetWasmFiles(Default, source.root, source.walk);
      |files| > 0 && AllKnown(StrippedNames(files), Ids(ledger))
    ensures var first := Update(source, admin, Default, ledger, s);
      var second := Update(source, admin, Default, first.ledger, s);
      first.result.Ok? && second.result.Ok? && IdSet(second.ledger) == IdSet(ledger)
  {
    var first := Update(source, admin, Default, ledger, s);
    var files := GetWasmFiles(Default, source.root, source.walk);
    var names := StrippedNames(files);
    UpdateDefault(source, admin, ledger, s);
    UpdateDefault(source, admin, first.ledger, s);
    forall n | n in names ensures AnyStartsWith(Ids(first.ledger), n) {
      var id :| id in Ids(ledger) && StartsWith(id, n);
      IdsMembership(ledger, id);
      IdsMembership(first.ledger, id);
    }
  }

  /** The ledger after a Default run on one file whose trigger is `id`: the
      trigger is taken out and appended again with the file's bytes as its
      executable, so it moves behind every other trigger. */
  function Replaced(ledger: Ledger, id: string, content: seq<byte>): Ledger
    requires id in IdSet(ledger)
  {
    Remove(ledger, id) + [Trigger(id, Find(ledger, id).value.action.(executable := content))]
  }

  /** Default mode, one file: the first id in query order that its stripped
      name is a prefix of is unregistered and registered again, which leaves
      it at the end of the ledger. */
  lemma ProcessUnitDefaultMoves(u: Unit, admin: AccountId, ledger: Ledger, s: Settings)
    requires AnyStartsWith(Ids(ledger), StrippedName(u))
    ensures var id := IdsByPrefix(Ids(ledger), StrippedName(u))[0];
      var r := ProcessUnit(u, Default, admin, Ids(ledger), ledger, s);
      && id in IdSet(ledger)
      && r.result == Ok(id)
      && r.ledger == Replaced(ledger, id, u.file.content)
  {
    var matching := IdsByPrefix(Ids(ledger), StrippedName(u));
    var id := matching[0];
    assert id in matching;
    IdsMembership(ledger, id);
    var t := Find(ledger, id).value;
    var reg := Trigger(id, t.action.(executable := u.file.content));
    assert GetTrigger(u, Default, Ids(ledger), ledger, s).result == Ok(t);
    var tx := BuildTransaction(admin, Default, t, u.file.content);
    assert tx.instructions == [UnregisterTrigger(id), RegisterWasmTrigger(reg)];
    ExecuteAllPair(ledger, UnregisterTrigger(id), RegisterWasmTrigger(reg));
    assert Submit(ledger, tx) == Ok(Remove(ledger, id) + [reg]);
  }

  /** One file processed on its own: its run is the whole run. */
  lemma ProcessUnitsSingle(u: Unit, mode: Mode, admin: AccountId, triggerIds: seq<string>, ledger: Ledger, s: Settings)
    requires mode.Unregisters() ==> AnyStartsWith(triggerIds, StrippedName(u))
    ensures var head := ProcessUnit(u, mode, admin, triggerIds, ledger, s);
      var r := ProcessUnits([u], mode, admin, triggerIds, ledger, s);
      && r.ledger == head.ledger
      && (head.result.Ok? ==> r.result == Ok([head.result.value]))
  {
    assert [u][0] == u && [u][1..] == [];
    var head := ProcessUnit(u, mode, admin, triggerIds, ledger, s);
    if head.result.Ok? {
      var tail := ProcessUnits([], mode, admin, triggerIds, head.ledger, s);
      assert tail == Run([], head.ledger, Ok([]));
      assert [head.result.value] + [] == [head.result.value];
    }
  }

  /** A Default run over exactly one known file returns that file's trigger
      and moves it to the end of the ledger with the new executable. */
  lemma UpdateDefaultOne(source: Source, admin: AccountId, ledger: Ledger, s: Settings, u: Unit)
    requires GetWasmFiles(Default, source.root, source.walk) == [u]
    requires AnyStartsWith(Ids(ledger), StrippedName(u))
    ensures var id := IdsByPrefix(Ids(ledger), StrippedName(u))[0];
      var r := Update(source, admin, Default, ledger, s);
      && id in IdSet(ledger)
      && r.result == Ok([id])
      && r.ledger == Replaced(ledger, id, u.file.content)
  {
    assert StrippedNames([u]) == [StrippedName(u)];
    UpdateProceeds(source, admin, Default, ledger, s);
    ProcessUnitDefaultMoves(u, admin, ledger, s);
    ProcessUnitsSingle(u, Default, admin, Ids(ledger), ledger, s);
  }

  /** Unregister mode: a success removed exactly the returned ids from the
      ledger, each of them existed, and none is returned twice. */
  lemma UpdateUnregister(source: Source, admin: AccountId, ledger: Ledger, s: Settings)
    ensures var r := Update(source, admin, Unregister, ledger, s);
      r.result.Ok? ==>
        && IdSet(r.ledger) == IdSet(ledger) - Elements(r.result.value)
        && Elements(r.result.value) <= IdSet(ledger)
        && Distinct(r.result.value)
  {
    var files := GetWasmFiles(Unregister, source.root, source.walk);
    if |files| > 0 && AllKnown(StrippedNames(files), Ids(ledger)) {
      KnownNamesResolve(files, Ids(ledger));
      ProcessUnitsUnregister(files, admin, Ids(ledger), ledger, s);
    }
  }

  /** Every enumerated file has a first match, and no two files share one. */
  predicate DistinctFirstMatches(units: seq<Unit>, triggerIds: seq<string>) {
    && (forall i :: 0 <= i < |units| ==> AnyStartsWith(triggerIds, StrippedName(units[i])))
    && Distinct(FirstMatches(units, triggerIds))
  }

  /** An Unregister run succeeds exactly when there are files, every stripped
      name is the prefix of an existing id, and no two files' first matches
      coincide. */
  lemma UpdateUnregisterOk(source: Source, admin: AccountId, ledger: Ledger, s: Settings)
    ensures var r := Update(source, admin, Unregister, ledger, s);
      var files := GetWasmFiles(Unregister, source.root, source.walk);
      r.result.Ok? <==>
        && |files| > 0
        && AllKnown(StrippedNames(files), Ids(ledger))
        && DistinctFirstMatches(files, Ids(ledger))
  {
    var files := GetWasmFiles(Unregister, source.root, source.walk);
    if |files| > 0 && AllKnown(StrippedNames(files), Ids(ledger)) {
      KnownNamesResolve(files, Ids(ledger));
      forall id | id in Ids(ledger) ensures id in IdSet(ledger) {
        IdsMembership(ledger, id);
      }
      ProcessUnitsUnregisterOk(files, admin, Ids(ledger), ledger, s);
    }
  }

  /** Register mode works on the given path alone. It succeeds exactly when
      the path is a regular file, its stripped name is not a prefix of any
      existing id, and the options are valid; the new trigger then carries
      the stripped name, the file's bytes and empty metadata, and it is the
      only id added to the ledger. */
  lemma UpdateRegister(source: Source, admin: AccountId, ledger: Ledger, s: Settings)
    ensures var r := Update(source, admin, Register, ledger, s);
      var u := Unit(source.root.name, source.root);
      var name := RemoveSuffix(source.root.name, WasmSuffix);
      && (r.result.Ok? <==>
            source.root.IsFile() && !AnyStartsWith(Ids(ledger), name) && NewTrigger(u, s).Ok?)
      && (r.result.Ok? ==>
            && r.result.value == [name]
            && name !in IdSet(ledger)
            && IdSet(r.ledger) == IdSet(ledger) + {name}
            && Find(r.ledger, name) == Some(NewTrigger(u, s).value)
            && Find(r.ledger, name).value.action.metadata == map[])
  {
    var files := GetWasmFiles(Register, source.root, source.walk);
    var u := Unit(source.root.name, source.root);
    var name := RemoveSuffix(source.root.name, WasmSuffix);
    if source.root.IsFile() {
      assert files == [u];
      assert files[0] == u && files[1..] == [];
      var head := ProcessUnit(u, Register, admin, Ids(ledger), ledger, s);
      if !AnyStartsWith(Ids(ledger), name) && NewTrigger(u, s).Ok? {
        assert StartsWith(name, name);
        if name in IdSet(ledger) {
          IdsMembership(ledger, name);
        }
        var t := NewTrigger(u, s).value;
        SubmitBuilt(ledger, admin, Register, t, u.file.content);
        assert t.action.(executable := u.file.content) == t.action;
        assert GetTrigger(u, Register, Ids(ledger), ledger, s).result == Ok(t);
        assert head.result == Ok(name);
        assert ProcessUnits(files[1..], Register, admin, Ids(ledger), head.ledger, s).result == Ok([]);
        assert [name] + [] == [name];
        assert ProcessUnits(files, Register, admin, Ids(ledger), ledger, s).result == Ok([name]);
      }
    }
  }

  /** Register mode refuses a file whose stripped name is a prefix of an
      existing id: nothing is submitted and the ledger is untouched. */
  lemma RegisterCollision(source: Source, admin: AccountId, ledger: Ledger, s: Settings)
    requires source.root.IsFile()
    requires AnyStartsWith(Ids(ledger), RemoveSuffix(source.root.name, WasmSuffix))
    ensures var r := Update(source, admin, Register, ledger, s);
      var name := RemoveSuffix(source.root.name, WasmSuffix);
      && r.result == Err(TriggerAlreadyExists(IdsByPrefix(Ids(ledger), name)))
      && Submitted(r.log) == []
      && r.ledger == ledger
  {
    var u := Unit(source.root.name, source.root);
    assert GetWasmFiles(Register, source.root, source.walk) == [u];
    assert Submitted([QueryActiveTriggerIds]) == [];
  }

  /** Default and Unregister mode refuse the whole batch when some stripped
      file name is a prefix of no existing id: only the id query was sent. */
  lemma UnknownTriggerSendsNothing(source: Source, admin: AccountId, mode: Mode, ledger: Ledger, s: Settings)
    requires mode.Unregisters()
    requires var files := GetWasmFiles(mode, source.root, source.walk);
      |files| > 0 && !AllKnown(StrippedNames(files), Ids(ledger))
    ensures var r := Update(source, admin, mode, ledger, s);
      r.result.Err? && r.result.error.UnknownTrigger? && Submitted(r.log) == [] && r.ledger == ledger
  {
    assert Submitted([QueryActiveTriggerIds]) == [];
  }
}

=== FILE: helper_scenarios.dfy ===
/** Concrete migration runs. */
module HelperScenarios {
  import opened Results
  import opened Jvm
  import opened DataModel
  import opened TriggerLedger
  import opened Triggers
  import opened WasmFiles
  import opened MigrationError
  import opened Helper
  import opened HelperProperties

  function Digits3600(text: string): Option<int> {
    if text == "3600" then Some(3600) else None
  }

  /** Registering "fraudcheck.wasm" with repeats 0 and a time trigger every
      3600 seconds creates the trigger "fraudcheck" starting at the current
      second, repeating indefinitely, with empty metadata. */
  lemma RegisterFraudcheck(payload: seq<byte>, nowMillis: int, tech: AccountId, admin: AccountId, ledger: Ledger)
    requires !AnyStartsWith(Ids(ledger), "fraudcheck")
    ensures var root := FileEntry("fraudcheck.wasm", RegularFile, payload);
      var s := Settings(0, 0, "tech@wonderland", "3600", nowMillis, Digits3600, _ => Some(tech));
      var r := Update(Source("fraudcheck.wasm", root, []), admin, Register, ledger, s);
      && r.result == Ok(["fraudcheck"])
      && Find(r.ledger, "fraudcheck") == Some(Trigger("fraudcheck", Action(
           payload, Indefinitely, tech,
           TimeFilter(Duration(MillisToSeconds(nowMillis), 0), Duration(3600, 0)), map[])))
  {
    var root := FileEntry("fraudcheck.wasm", RegularFile, payload);
    var s := Settings(0, 0, "tech@wonderland", "3600", nowMillis, Digits3600, _ => Some(tech));
    FraudcheckTrigger(root, s, tech);
    UpdateRegister(Source("fraudcheck.wasm", root, []), admin, ledger, s);
  }

  /** The trigger built for "fraudcheck.wasm" with those options. */
  lemma FraudcheckTrigger(root: FileEntry, s: Settings, tech: AccountId)
    requires root.name == "fraudcheck.wasm"
    requires s.repeats == 0 && s.triggerType == 0 && s.triggerArgument == "3600"
    requires s.toLong("3600") == Some(3600) && s.asAccountId(s.technicalAccount) == Some(tech)
    ensures RemoveSuffix(root.name, WasmSuffix) == "fraudcheck"
    ensures NewTrigger(Unit(root.name, root), s) == Ok(Trigger("fraudcheck", Action(
      root.content, Indefinitely, tech,
      TimeFilter(Duration(MillisToSeconds(s.nowMillis), 0), Duration(3600, 0)), map[])))
  {
    RemoveSuffixOfAppend("fraudcheck", ".wasm");
    assert "fraudcheck" + ".wasm" == "fraudcheck.wasm";
  }

  /** The default repeats value -1 is refused before anything is submitted. */
  lemma DefaultRepeatsRefused(payload: seq<byte>, nowMillis: int, admin: AccountId, ledger: Ledger,
                              toLong: string -> Option<int>, asAccountId: string -> Option<AccountId>)
    requires !AnyStartsWith(Ids(ledger), "fraudcheck")
    ensures var root := FileEntry("fraudcheck.wasm", RegularFile, payload);
      var r := Update(Source("fraudcheck.wasm", root, []), admin, Register, ledger,
                      DefaultSettings(nowMillis, toLong, asAccountId));
      r.result == Err(UnsupportedRepeats(-1)) && Submitted(r.log) == [] && r.ledger == ledger
  {
    var root := FileEntry("fraudcheck.wasm", RegularFile, payload);
    RemoveSuffixOfAppend("fraudcheck", ".wasm");
    assert "fraudcheck" + ".wasm" == "fraudcheck.wasm";
    var u := Unit(root.name, root);
    assert GetWasmFiles(Register, root, []) == [u];
    assert Submitted([QueryActiveTriggerIds]) == [];
  }

  /** An empty directory fails before the ledger is queried. */
  lemma EmptyDirectory(admin: AccountId, ledger: Ledger, s: Settings)
    ensures var dir := FileEntry("wasm", Directory, []);
      var r := Update(Source("wasm", dir, [dir]), admin, Default, ledger, s);
      r.result == Err(InputNotFound("wasm")) && r.log == []
  {
    var dir := FileEntry("wasm", Directory, []);
    assert WasmEntries([dir]) == [];
  }

  /** The enumeration keeps the two files of the walk and drops the directory. */
  lemma SharedPrefixEntries(dir: FileEntry, fa: FileEntry, fb: FileEntry)
    requires dir == FileEntry("wasm", Directory, [])
    requires fa.name == "a.wasm" && fa.kind == RegularFile
    requires fb.name == "ab.wasm" && fb.kind == RegularFile
    ensures WasmEntries([dir, fa, fb]) == [fa, fb]
  {
    assert IsWasmEntry(fa) by {
      assert "a.wasm"[|"a.wasm"| - |WasmSuffix|..] == WasmSuffix;
    }
    assert IsWasmEntry(fb) by {
      assert "ab.wasm"[|"ab.wasm"| - |WasmSuffix|..] == WasmSuffix;
    }
    assert WasmEntries([fb]) == [fb] by {
      assert [fb][1..] == [];
    }
    assert WasmEntries([fa, fb]) == [fa, fb] by {
      assert [fa, fb][1..] == [fb];
    }
    assert [dir, fa, fb][1..] == [fa, fb];
  }

  /** The walk of a directory holding "a.wasm" and "ab.wasm" yields both, in walk order. */
  lemma SharedPrefixWalk(dir: FileEntry, fa: FileEntry, fb: FileEntry)
    requires dir == FileEntry("wasm", Directory, [])
    requires fa.name == "a.wasm" && fa.kind == RegularFile
    requires fb.name == "ab.wasm" && fb.kind == RegularFile
    ensures GetWasmFiles(Unregister, dir, [dir, fa, fb]) == [Unit("a.wasm", fa), Unit("ab.wasm", fb)]
  {
    SharedPrefixEntries(dir, fa, fb);
    assert [fa, fb][..1] == [fa];
    assert [fa][..0] == [];
    assert AssociateByName([fa]) == [Unit("a.wasm", fa)];
    assert "a.wasm" != "ab.wasm";
  }

  /** A ledger with no ids is empty. */
  lemma EmptyIdSet(l: Ledger)
    requires IdSet(l) == {}
    ensures l == []
  {
    assert |l| > 0 ==> l[0].id in IdSet(l);
  }

  /** Both names strip to prefixes of "abc", which resolves each of them. */
  lemma SharedPrefixNames(files: seq<Unit>)
    requires |files| == 2 && files[0].key == "a.wasm" && files[1].key == "ab.wasm"
    ensures StrippedName(files[0]) == "a" && StrippedName(files[1]) == "ab"
    ensures IdsByPrefix(["abc"], "a") == ["abc"] && IdsByPrefix(["abc"], "ab") == ["abc"]
  {
    RemoveSuffixOfAppend("a", ".wasm");
    RemoveSuffixOfAppend("ab", ".wasm");
    assert "a" + ".wasm" == "a.wasm" && "ab" + ".wasm" == "ab.wasm";
    assert StartsWith("abc", "a") && StartsWith("abc", "ab");
  }

  /** Both files resolve to "abc"; the first unregisters it and the second
      then fails to find it. */
  lemma SharedPrefixUnits(admin: AccountId, s: Settings, action: Action, files: seq<Unit>)
    requires |files| == 2 && files[0].key == "a.wasm" && files[1].key == "ab.wasm"
    requires forall i :: 0 <= i < |files| ==> AnyStartsWith(["abc"], StrippedName(files[i]))
    ensures var r := ProcessUnits(files, Unregister, admin, ["abc"], [Trigger("abc", action)], s);
      && r.result == Err(TriggerNotFound("abc"))
      && r.ledger == []
      && |Submitted(r.log)| == 1
  {
    var ledger := [Trigger("abc", action)];
    SharedPrefixNames(files);
    assert Ids(ledger) == ["abc"];
    var first := ProcessUnit(files[0], Unregister, admin, ["abc"], ledger, s);
    assert "abc" in IdSet(ledger);
    assert first.result == Ok("abc");
    assert IdSet(first.ledger) == {};
    EmptyIdSet(first.ledger);
    var second := ProcessUnit(files[1], Unregister, admin, ["abc"], [], s);
    assert second.result == Err(TriggerNotFound("abc"));
    assert files[1..] == [files[1]];
    assert |Submitted(first.log)| == 1;
    assert Submitted(second.log) == [];
    SubmittedAppend(first.log, second.log);
  }

  /** "a" and "ab" are both prefixes of "abc". */
  lemma SharedPrefixKnown(files: seq<Unit>, action: Action)
    requires |files| == 2 && files[0].key == "a.wasm" && files[1].key == "ab.wasm"
    ensures Ids([Trigger("abc", action)]) == ["abc"]
    ensures AllKnown(StrippedNames(files), ["abc"])
    ensures forall i :: 0 <= i < |files| ==> AnyStartsWith(["abc"], StrippedName(files[i]))
  {
    RemoveSuffixOfAppend("a", ".wasm");
    RemoveSuffixOfAppend("ab", ".wasm");
    assert "a" + ".wasm" == "a.wasm" && "ab" + ".wasm" == "ab.wasm";
    assert StartsWith("abc", "a") && StartsWith("abc", "ab");
    assert StrippedNames(files) == ["a", "ab"];
    assert "abc" in ["abc"];
  }

  /** Any source that enumerates the two files of `SharedPrefixUnits` runs
      them after the id query. */
  lemma SharedPrefixUpdate(source: Source, admin: AccountId, s: Settings, action: Action, files: seq<Unit>)
    requires GetWasmFiles(Unregister, source.root, source.walk) == files
    requires |files| == 2 && files[0].key == "a.wasm" && files[1].key == "ab.wasm"
    ensures var r := Update(source, admin, Unregister, [Trigger("abc", action)], s);
      && r.result == Err(TriggerNotFound("abc"))
      && r.ledger == []
      && |Submitted(r.log)| == 1
  {
    var ledger := [Trigger("abc", action)];
    SharedPrefixKnown(files, action);
    UpdateProceeds(source, admin, Unregister, ledger, s);
    SharedPrefixUnits(admin, s, action, files);
    var rest := ProcessUnits(files, Unregister, admin, ["abc"], ledger, s);
    SubmittedAfterQuery(rest.log);
  }

  /** Two files whose names are both prefixes of the one trigger "abc": in
      Unregister mode the first file unregisters it, the second finds it gone
      and fails, and the first unregistration stays. */
  lemma UnregisterSharedPrefix(admin: AccountId, s: Settings, action: Action, a: seq<byte>, b: seq<byte>)
    ensures var dir := FileEntry("wasm", Directory, []);
      var fa := FileEntry("a.wasm", RegularFile, a);
      var fb := FileEntry("ab.wasm", RegularFile, b);
      var r := Update(Source("wasm", dir, [dir, fa, fb]), admin, Unregister, [Trigger("abc", action)], s);
      && r.result == Err(TriggerNotFound("abc"))
      && r.ledger == []
      && |Submitted(r.log)| == 1
  {
    var dir := FileEntry("wasm", Directory, []);
    var fa := FileEntry("a.wasm", RegularFile, a);
    var fb := FileEntry("ab.wasm", RegularFile, b);
    SharedPrefixWalk(dir, fa, fb);
    SharedPrefixUpdate(Source("wasm", dir, [dir, fa, fb]), admin, s, action, [Unit("a.wasm", fa), Unit("ab.wasm", fb)]);
  }

  /** A walk holding only "ab.wasm" yields that one file, whose name strips to "ab". */
  lemma RerunWalk(f: FileEntry)
    requires f.name == "ab.wasm" && f.kind == RegularFile
    ensures GetWasmFiles(Default, f, [f]) == [Unit("ab.wasm", f)]
    ensures StrippedName(Unit("ab.wasm", f)) == "ab"
  {
    assert IsWasmEntry(f) by {
      assert "ab.wasm"[|"ab.wasm"| - |WasmSuffix|..] == WasmSuffix;
    }
    assert [f][1..] == [];
    assert WasmEntries([f]) == [f];
    assert [f][..0] == [];
    assert AssociateByName([f]) == [Unit("ab.wasm", f)];
    RemoveSuffixOfAppend("ab", ".wasm");
    assert "ab" + ".wasm" == "ab.wasm";
  }

  /** Of two triggers whose ids both start with "ab", the first is the one
      resolved, and removing it leaves the second. */
  lemma RerunLedger(x: Trigger, y: Trigger)
    requires StartsWith(x.id, "ab") && StartsWith(y.id, "ab") && x.id != y.id
    ensures AnyStartsWith(Ids([x, y]), "ab")
    ensures IdsByPrefix(Ids([x, y]), "ab")[0] == x.id
    ensures Remove([x, y], x.id) == [y]
  {
    assert Ids([x, y]) == [x.id, y.id];
    assert x.id in Ids([x, y]);
    assert [x, y][1..] == [y] && [y][1..] == [];
    assert Remove([y], x.id) == [y] + Remove([], x.id);
  }

  /** One Default run for "ab.wasm" against two triggers whose ids both
      start with "ab" replaces the first and moves it behind the second. */
  lemma RerunStep(admin: AccountId, s: Settings, x: Trigger, y: Trigger, content: seq<byte>)
    requires StartsWith(x.id, "ab") && StartsWith(y.id, "ab") && x.id != y.id
    ensures var f := FileEntry("ab.wasm", RegularFile, content);
      var r := Update(Source("ab.wasm", f, [f]), admin, Default, [x, y], s);
      && r.result == Ok([x.id])
      && r.ledger == [y, x.(action := x.action.(executable := content))]
  {
    var f := FileEntry("ab.wasm", RegularFile, content);
    RerunWalk(f);
    RerunLedger(x, y);
    UpdateDefaultOne(Source("ab.wasm", f, [f]), admin, [x, y], s, Unit("ab.wasm", f));
  }

  /** Running Default mode twice for "ab.wasm" against the triggers "ab1",
      "ab2" does not replace the same trigger twice: the first run replaces
      "ab1", which moves behind "ab2", so the second run replaces "ab2". */
  lemma DefaultRerunMovesOn(admin: AccountId, s: Settings, a1: Action, a2: Action, content: seq<byte>)
    ensures var f := FileEntry("ab.wasm", RegularFile, content);
      var source := Source("ab.wasm", f, [f]);
      var first := Update(source, admin, Default, [Trigger("ab1", a1), Trigger("ab2", a2)], s);
      var second := Update(source, admin, Default, first.ledger, s);
      && first.result == Ok(["ab1"])
      && first.ledger == [Trigger("ab2", a2), Trigger("ab1", a1.(executable := content))]
      && second.result == Ok(["ab2"])
      && second.ledger == [Trigger("ab1", a1.(executable := content)), Trigger("ab2", a2.(executable := content))]
  {
    var x := Trigger("ab1", a1);
    var y := Trigger("ab2", a2);
    assert StartsWith("ab1", "ab") && StartsWith("ab2", "ab");
    RerunStep(admin, s, x, y, content);
    RerunStep(admin, s, y, x.(action := x.action.(executable := content)), content);
  }
}

=== FILE: jvm.dfy ===
/** The few Kotlin standard-library and JVM operations the tools rely on,
    written out so that their edge cases are explicit. */
module Jvm {

  /** Kotlin's `String.startsWith(prefix)`: every string starts with "". */
  predicate StartsWith(s: string, prefix: string) {
    |prefix| <= |s| && s[..|prefix|] == prefix
  }

  /** Kotlin's `String.endsWith(suffix)`. */
  predicate EndsWith(s: string, suffix: string) {
    |suffix| <= |s| && s[|s| - |suffix|..] == suffix
  }

  /** Kotlin's `String.removeSuffix(suffix)`: drops the suffix when present,
      otherwise returns the string unchanged. */
  function RemoveSuffix(s: string, suffix: string): (r: string)
    ensures EndsWith(s, suffix) ==> r + suffix == s
    ensures !EndsWith(s, suffix) ==> r == s
    ensures StartsWith(s, r)
  {
    if EndsWith(s, suffix) then s[..|s| - |suffix|] else s
  }

  /** Removing a suffix undoes appending it. */
  lemma RemoveSuffixOfAppend(n: string, suffix: string)
    ensures EndsWith(n + suffix, suffix)
    ensures RemoveSuffix(n + suffix, suffix) == n
  {
    assert (n + suffix)[|n + suffix| - |suffix|..] == suffix;
    assert (n + suffix)[..|n|] == n;
  }

  /** `Long / 1000` on the JVM: integer division truncating toward zero, so a
      negative millisecond count rounds up, unlike Dafny's `/`. */
  function MillisToSeconds(millis: int): (s: int)
    ensures millis >= 0 ==> 0 <= s && s * 1000 <= millis < (s + 1) * 1000
    ensures millis < 0 ==> s <= 0 && (s - 1) * 1000 < millis <= s * 1000
  {
    if millis >= 0 then millis / 1000 else -((-millis) / 1000)
  }

  /** `Instant.ofEpochMilli(ms).epochSecond`: floor division, so a negative
      millisecond count rounds down. */
  function FloorMillisToSeconds(millis: int): (s: int)
    ensures s * 1000 <= millis < (s + 1) * 1000
  {
    millis / 1000
  }
}

=== FILE: migration_error.dfy ===
/** Why a trigger migration stops. Every one of them ends the whole call;
    transactions already accepted for earlier files stay on the ledger. */
module MigrationError {
  import TriggerLedger

  datatype Error =
    | InputNotFound(path: string)
    | UnknownTrigger(found: seq<string>, provided: seq<string>)
    | TriggerAlreadyExists(matching: seq<string>)
    | UnsupportedRepeats(repeats: int)
    | UnsupportedTriggerType(triggerType: int)
    | NumberFormat(text: string)
    | MalformedAccountId(text: string)
    | TriggerNotFound(id: string)
    | TransactionRejected(reason: TriggerLedger.Rejection)
}

=== FILE: results.dfy ===
/** Failure-compatible wrappers used by both migration tools: `Option` for a
    value that may be absent (a nullable reference, a parse that may fail) and
    `Result` for an operation that may throw. */
module Results {

  datatype Option<+T> = None | Some(value: T)

  /** `Err` plays the part of a thrown exception: it ends the current call. */
  datatype Result<+T, +E> = Ok(value: T) | Err(error: E) {

    predicate IsFailure() {
      Err?
    }

    function PropagateFailure<U>(): Result<U, E>
      requires Err?
    {
      Err(error)
    }

    function Extract(): T
      requires Ok?
    {
      value
    }
  }
}

=== FILE: sequences.dfy ===
/** Generic sequence facts: order-preserving selection, as Kotlin's
    `filter` makes, and slices of concatenations. */
module Sequences {

  /** `a` can be obtained from `b` by deleting elements. */
  predicate Subsequence<T(==)>(a: seq<T>, b: seq<T>)
    decreases |b|
  {
    |a| == 0 || (|b| > 0 && if a[0] == b[0] then Subsequence(a[1..], b[1..]) else Subsequence(a, b[1..]))
  }

  /** A slice lying wholly in the right operand of a concatenation. */
  lemma AppendSlice<T>(a: seq<T>, b: seq<T>, lo: int, hi: int)
    requires |a| <= lo <= hi <= |a| + |b|
    ensures (a + b)[lo..hi] == b[lo - |a|..hi - |a|]
  {
  }

  /** Dropping the head of a prefix is taking a prefix of the tail. */
  lemma PrefixTail<T>(s: seq<T>, k: nat)
    requires 0 < k <= |s|
    ensures s[..k][0] == s[0]
    ensures s[..k][1..] == s[1..][..k - 1]
    ensures k < |s| ==> s[k] == s[1..][k - 1]
  {
  }
}

=== FILE: trigger_ledger.dfy ===
/** The node's set of registered triggers, as the migration tool sees it.
    The order of the sequence is the order in which the active-trigger query
    lists the ids. A transaction is atomic: it either applies all its
    instructions or is rejected and changes nothing. */
module TriggerLedger {
  import opened Results
  import opened DataModel

  type Ledger = seq<Trigger>

  datatype Rejection = NoSuchTrigger(id: string) | DuplicateTrigger(id: string)

  /** The ids the active-trigger query returns, in ledger order. */
  function Ids(l: Ledger): (ids: seq<string>)
    ensures |ids| == |l|
    ensures forall i :: 0 <= i < |l| ==> ids[i] == l[i].id
  {
    seq(|l|, i requires 0 <= i < |l| => l[i].id)
  }

  function IdSet(l: Ledger): set<string> {
    set t | t in l :: t.id
  }

  lemma IdsMembership(l: Ledger, id: string)
    ensures id in Ids(l) <==> id in IdSet(l)
  {
    if id in Ids(l) {
      var i :| 0 <= i < |l| && Ids(l)[i] == id;
      assert l[i] in l;
    }
    if id in IdSet(l) {
      var t :| t in l && t.id == id;
      var i :| 0 <= i < |l| && l[i] == t;
      assert Ids(l)[i] == id;
    }
  }

  lemma IdSetAppend(l: Ledger, t: Trigger)
    ensures IdSet(l + [t]) == IdSet(l) + {t.id}
  {
    assert forall x :: x in l + [t] <==> x in l || x == t;
  }

  lemma IdSetCons(t: Trigger, l: Ledger)
    ensures IdSet([t] + l) == {t.id} + IdSet(l)
  {
    assert forall x :: x in [t] + l <==> x == t || x in l;
  }

  /** Lookup by id (the find-trigger-by-id query): the first trigger with that id. */
  function Find(l: Ledger, id: string): (r: Option<Trigger>)
    ensures r.Some? <==> id in IdSet(l)
    ensures r.Some? ==> r.value in l && r.value.id == id
  {
    if |l| == 0 then None
    else if l[0].id == id then Some(l[0])
    else
      IdSetCons(l[0], l[1..]);
      assert [l[0]] + l[1..] == l;
      Find(l[1..], id)
  }

  /** Every trigger with the given id removed, the others kept in order. */
  function Remove(l: Ledger, id: string): (r: Ledger)
    ensures IdSet(r) == IdSet(l) - {id}
    ensures forall t :: t in r ==> t in l
  {
    if |l| == 0 then []
    else
      var rest := Remove(l[1..], id);
      IdSetCons(l[0], l[1..]);
      assert [l[0]] + l[1..] == l;
      if l[0].id == id then rest
      else
        IdSetCons(l[0], rest);
        [l[0]] + rest
  }

  /** Finding an id among triggers where only the last carries it yields that last one. */
  lemma FindAppended(l: Ledger, t: Trigger)
    requires t.id !in IdSet(l)
    ensures Find(l + [t], t.id) == Some(t)
  {
    if |l| == 0 {
    } else {
      assert l[0] in l;
      IdSetCons(l[0], l[1..]);
      assert [l[0]] + l[1..] == l;
      assert (l + [t])[1..] == l[1..] + [t];
      FindAppended(l[1..], t);
    }
  }

  /** One instruction's effect on the trigger registry. Instructions that do
      not concern triggers leave it unchanged. */
  function Execute(l: Ledger, isi: Instruction): (r: Result<Ledger, Rejection>)
    ensures isi.UnregisterTrigger? ==>
      (r.Ok? <==> isi.triggerId in IdSet(l)) &&
      (r.Ok? ==> IdSet(r.value) == IdSet(l) - {isi.triggerId})
    ensures isi.RegisterWasmTrigger? ==>
      (r.Ok? <==> isi.trigger.id !in IdSet(l)) &&
      (r.Ok? ==> IdSet(r.value) == IdSet(l) + {isi.trigger.id} &&
                 Find(r.value, isi.trigger.id) == Some(isi.trigger))
    ensures !isi.UnregisterTrigger? && !isi.RegisterWasmTrigger? ==> r == Ok(l)
  {
    match isi
    case UnregisterTrigger(id) =>
      if id in IdSet(l) then Ok(Remove(l, id)) else Err(NoSuchTrigger(id))
    case RegisterWasmTrigger(t) =>
      if t.id in IdSet(l) then Err(DuplicateTrigger(t.id))
      else
        IdSetAppend(l, t);
        FindAppended(l, t);
        Ok(l + [t])
    case _ => Ok(l)
  }

  /** The instructions of one transaction, applied in order; the first
      rejection rejects the whole transaction. */
  function ExecuteAll(l: Ledger, isis: seq<Instruction>): Result<Ledger, Rejection>
    decreases |isis|
  {
    if |isis| == 0 then Ok(l)
    else
      var next :- Execute(l, isis[0]);
      ExecuteAll(next, isis[1..])
  }

  lemma ExecuteAllSingle(l: Ledger, isi: Instruction)
    ensures ExecuteAll(l, [isi]) == Execute(l, isi)
  {
    assert [isi][1..] == [];
  }

  lemma ExecuteAllPair(l: Ledger, first: Instruction, second: Instruction)
    ensures Execute(l, first).Err? ==> ExecuteAll(l, [first, second]) == Err(Execute(l, first).error)
    ensures Execute(l, first).Ok? ==>
      ExecuteAll(l, [first, second]) == Execute(Execute(l, first).value, second)
  {
    assert [first, second][1..] == [second];
    if Execute(l, first).Ok? {
      ExecuteAllSingle(Execute(l, first).value, second);
    }
  }

  function Submit(l: Ledger, tx: Transaction): Result<Ledger, Rejection> {
    ExecuteAll(l, tx.instructions)
  }
}

=== FILE: triggers.dfy ===
/** The integer-coded options of the trigger migration tool and the two
    event filters it can attach to a new trigger. */
module Triggers {
  import opened Results
  import opened Jvm
  import opened DataModel
  import opened MigrationError

  /** What a migration run does to each trigger: unregister then register
      again, register only, or unregister only. */
  datatype Mode = Default | Register | Unregister {

    predicate Unregisters() {
      Default? || Unregister?
    }

    predicate Registers() {
      Default? || Register?
    }
  }

  /** How often a new trigger fires, as chosen on the command line. */
  datatype RepeatsEnum = RepeatsIndefinitely | RepeatsExactly {

    function Num(): int {
      match this
      case RepeatsIndefinitely => 0
      case RepeatsExactly => 1
    }
  }

  /** Decodes the repeats option; only the codes of the two constants are accepted. */
  function RepeatsFrom(num: int): (r: Result<RepeatsEnum, Error>)
    ensures r.Ok? <==> num == 0 || num == 1
    ensures r.Ok? ==> r.value.Num() == num
    ensures r.Err? ==> r.error == UnsupportedRepeats(num)
  {
    if num == RepeatsIndefinitely.Num() then Ok(RepeatsIndefinitely)
    else if num == RepeatsExactly.Num() then Ok(RepeatsExactly)
    else Err(UnsupportedRepeats(num))
  }

  lemma RepeatsRoundTrip(e: RepeatsEnum)
    ensures RepeatsFrom(e.Num()) == Ok(e)
  {
  }

  /** Which events a new trigger listens to. */
  datatype TriggerType = Time | DataByAccountMetadata {

    function Num(): int {
      match this
      case Time => 0
      case DataByAccountMetadata => 1
    }
  }

  /** Decodes the trigger-type option; only the codes of the two constants are accepted. */
  function TriggerTypeFrom(num: int): (r: Result<TriggerType, Error>)
    ensures r.Ok? <==> num == 0 || num == 1
    ensures r.Ok? ==> r.value.Num() == num
    ensures r.Err? ==> r.error == UnsupportedTriggerType(num)
  {
    if num == Time.Num() then Ok(Time)
    else if num == DataByAccountMetadata.Num() then Ok(DataByAccountMetadata)
    else Err(UnsupportedTriggerType(num))
  }

  lemma TriggerTypeRoundTrip(e: TriggerType)
    ensures TriggerTypeFrom(e.Num()) == Ok(e)
  {
  }

  /** A time filter starting now and firing every `timeInterval` seconds.
      The wall clock is the parameter `nowMillis` (milliseconds since the
      epoch); the start is that instant in whole seconds, truncated. */
  function GetTimeTrigger(timeInterval: int, nowMillis: int): (f: EventsFilter)
    ensures f.TimeFilter?
    ensures f.period == Duration(timeInterval, 0)
    ensures f.start.nanos == 0
    ensures nowMillis >= 0 ==> f.start.seconds * 1000 <= nowMillis < (f.start.seconds + 1) * 1000
    ensures nowMillis < 0 ==> (f.start.seconds - 1) * 1000 < nowMillis <= f.start.seconds * 1000
  {
    var currentTime := MillisToSeconds(nowMillis);
    TimeFilter(Duration(currentTime, 0), Duration(timeInterval, 0))
  }

  /** A filter on metadata insertions into accounts: into the given account
      only, or into any account when none is given. */
  function GetDataTriggerByAccountMetadataInserted(accountId: Option<AccountId>): (f: EventsFilter)
    ensures f.DataByAccount?
    ensures f.origin.None? <==> accountId.None?
    ensures accountId.Some? ==> f.origin == accountId
    ensures f.event == ByMetadataInserted
  {
    DataByAccount(accountId, ByMetadataInserted)
  }
}

=== FILE: wasm_files.dfy ===
/** Enumeration of the WASM files a migration run works on. The file system
    is abstracted to the entries a directory walk yields, each a record of
    name, kind and content. */
module WasmFiles {
  import opened Sequences
  import opened Jvm
  import opened DataModel
  import opened Triggers

  const WasmSuffix: string := ".wasm"

  /** A path that is neither a regular file nor a directory (a device, a
      socket, or nothing at all) is `Special`. */
  datatype Kind = RegularFile | Directory | Special

  datatype FileEntry = FileEntry(name: string, kind: Kind, content: seq<byte>) {

    predicate IsFile() {
      kind.RegularFile?
    }

    predicate IsDirectory() {
      kind.Directory?
    }
  }

  /** One entry of the name-keyed map of files: the file name and the file. */
  datatype Unit = Unit(key: string, file: FileEntry)

  function Names(files: seq<FileEntry>): (names: seq<string>)
    ensures |names| == |files|
    ensures forall i :: 0 <= i < |files| ==> names[i] == files[i].name
  {
    seq(|files|, i requires 0 <= i < |files| => files[i].name)
  }

  function Keys(m: seq<Unit>): (keys: seq<string>)
    ensures |keys| == |m|
    ensures forall i :: 0 <= i < |m| ==> keys[i] == m[i].key
  {
    seq(|m|, i requires 0 <= i < |m| => m[i].key)
  }

  predicate DistinctKeys(m: seq<Unit>) {
    forall i, j :: 0 <= i < j < |m| ==> m[i].key != m[j].key
  }

  /** Position of the first occurrence of `k`. */
  function FirstIndex(names: seq<string>, k: string): (i: nat)
    requires k in names
    ensures i < |names| && names[i] == k
    ensures forall j :: 0 <= j < i ==> names[j] != k
  {
    if names[0] == k then 0 else 1 + FirstIndex(names[1..], k)
  }

  /** Position of the last occurrence of `k`. */
  function LastIndex(names: seq<string>, k: string): (i: nat)
    requires k in names
    ensures i < |names| && names[i] == k
    ensures forall j :: i < j < |names| ==> names[j] != k
  {
    if names[|names| - 1] == k then |names| - 1
    else LastIndex(names[..|names| - 1], k)
  }

  /** Inserting into an insertion-ordered map: a new key goes to the end, an
      existing key keeps its place and takes the new value. */
  function Put(m: seq<Unit>, f: FileEntry): (r: seq<Unit>)
    requires DistinctKeys(m)
    ensures f.name in Keys(m) ==> |r| == |m|
    ensures f.name !in Keys(m) ==> |r| == |m| + 1 && r[|m|] == Unit(f.name, f)
    ensures forall i :: 0 <= i < |m| ==> r[i].key == m[i].key
    ensures forall i :: 0 <= i < |m| && m[i].key != f.name ==> r[i] == m[i]
    ensures forall i :: 0 <= i < |r| && r[i].key == f.name ==> r[i].file == f
    ensures DistinctKeys(r)
  {
    if f.name in Keys(m) then m[FirstIndex(Keys(m), f.name) := Unit(f.name, f)]
    else m + [Unit(f.name, f)]
  }

  /** Every entry holds the last file carrying its key. */
  predicate ValuesAreLast(files: seq<FileEntry>, m: seq<Unit>) {
    forall i :: 0 <= i < |m| ==>
      m[i].key in Names(files) && m[i].file == files[LastIndex(Names(files), m[i].key)]
  }

  /** Every file's name is a key. */
  predicate CoversNames(files: seq<FileEntry>, m: seq<Unit>) {
    forall j :: 0 <= j < |files| ==> files[j].name in Keys(m)
  }

  /** Keys appear in the order of their names' first occurrences. */
  predicate FirstOccurrenceOrder(files: seq<FileEntry>, m: seq<Unit>) {
    forall i, j :: 0 <= i < j < |m| && m[i].key in Names(files) && m[j].key in Names(files) ==>
      FirstIndex(Names(files), m[i].key) < FirstIndex(Names(files), m[j].key)
  }

  /** The map `files.associateBy { it.name }` builds: one entry per distinct
      name, in order of the name's first occurrence, holding the LAST file
      with that name (a later file with the same name replaces the value but
      not the position); the three lemmas below state this. */
  function AssociateByName(files: seq<FileEntry>): (m: seq<Unit>)
    ensures DistinctKeys(m)
    decreases |files|
  {
    if |files| == 0 then []
    else Put(AssociateByName(files[..|files| - 1]), files[|files| - 1])
  }

  /** The value under each key is the last file with that name. */
  lemma {:induction false} AssociateByNameKeepsLast(files: seq<FileEntry>)
    ensures ValuesAreLast(files, AssociateByName(files))
    decreases |files|
  {
    if |files| > 0 {
      var init := files[..|files| - 1];
      AssociateByNameKeepsLast(init);
      assert init + [files[|files| - 1]] == files;
      PutLastValues(init, files[|files| - 1], AssociateByName(init));
    }
  }

  /** Every file name becomes a key. */
  lemma {:induction false} AssociateByNameCovers(files: seq<FileEntry>)
    ensures CoversNames(files, AssociateByName(files))
    decreases |files|
  {
    if |files| > 0 {
      var init := files[..|files| - 1];
      AssociateByNameCovers(init);
      assert init + [files[|files| - 1]] == files;
      PutLastCovers(init, files[|files| - 1], AssociateByName(init));
    }
  }

  /** Keys come in the order in which their names first occur. */
  lemma {:induction false} AssociateByNameOrder(files: seq<FileEntry>)
    ensures FirstOccurrenceOrder(files, AssociateByName(files))
    decreases |files|
  {
    if |files| > 0 {
      var init := files[..|files| - 1];
      var prev := AssociateByName(init);
      AssociateByNameOrder(init);
      AssociateByNameCovers(init);
      AssociateByNameKeys(init);
      assert init + [files[|files| - 1]] == files;
      PutLastOrder(init, files[|files| - 1], prev);
    }
  }

  /** Every key is the name of some file. */
  lemma {:induction false} AssociateByNameKeys(files: seq<FileEntry>)
    ensures forall i :: 0 <= i < |AssociateByName(files)| ==> AssociateByName(files)[i].key in Names(files)
    decreases |files|
  {
    if |files| > 0 {
      var init := files[..|files| - 1];
      var f := files[|files| - 1];
      AssociateByNameKeys(init);
      assert init + [f] == files;
      NamesSnoc(init, f);
    }
  }

  lemma NamesSnoc(init: seq<FileEntry>, f: FileEntry)
    ensures Names(init + [f]) == Names(init) + [f.name]
  {
  }

  /** Induction step of `AssociateByName`: values stay the last ones. */
  lemma PutLastValues(init: seq<FileEntry>, f: FileEntry, prev: seq<Unit>)
    requires DistinctKeys(prev)
    requires ValuesAreLast(init, prev)
    ensures ValuesAreLast(init + [f], Put(prev, f))
  {
    var files := init + [f];
    var m := Put(prev, f);
    var n := |init|;
    NamesSnoc(init, f);
    assert Names(files)[..n] == Names(init);
    forall i | 0 <= i < |m|
      ensures m[i].key in Names(files) && m[i].file == files[LastIndex(Names(files), m[i].key)]
    {
      if m[i].key == f.name {
        assert Names(files)[n] == f.name;
        assert LastIndex(Names(files), f.name) == n;
      } else {
        assert m[i] == prev[i];
        assert LastIndex(Names(files), m[i].key) == LastIndex(Names(init), m[i].key);
      }
    }
  }

  /** Induction step of `AssociateByName`: all names stay keys. */
  lemma PutLastCovers(init: seq<FileEntry>, f: FileEntry, prev: seq<Unit>)
    requires DistinctKeys(prev)
    requires CoversNames(init, prev)
    ensures CoversNames(init + [f], Put(prev, f))
  {
    var files := init + [f];
    var m := Put(prev, f);
    forall j | 0 <= j < |files|
      ensures files[j].name in Keys(m)
    {
      if j < |init| {
        var i :| 0 <= i < |prev| && Keys(prev)[i] == init[j].name;
        assert Keys(m)[i] == init[j].name;
      } else if f.name in Keys(prev) {
        var i :| 0 <= i < |prev| && Keys(prev)[i] == f.name;
        assert Keys(m)[i] == f.name;
      } else {
        assert Keys(m)[|prev|] == f.name;
      }
    }
  }

  lemma FirstIndexSnoc(init: seq<FileEntry>, f: FileEntry, k: string)
    requires k in Names(init)
    ensures k in Names(init + [f])
    ensures FirstIndex(Names(init + [f]), k) == FirstIndex(Names(init), k)
  {
    NamesSnoc(init, f);
    FirstIndexUnique(Names(init + [f]), k, FirstIndex(Names(init), k));
  }

  lemma FirstIndexNew(init: seq<FileEntry>, f: FileEntry)
    requires f.name !in Names(init)
    ensures f.name in Names(init + [f])
    ensures FirstIndex(Names(init + [f]), f.name) == |init|
  {
    NamesSnoc(init, f);
    FirstIndexUnique(Names(init + [f]), f.name, |init|);
  }

  /** Induction step of `AssociateByName`: a new key goes after all others. */
  lemma PutLastOrder(init: seq<FileEntry>, f: FileEntry, prev: seq<Unit>)
    requires DistinctKeys(prev)
    requires forall i :: 0 <= i < |prev| ==> prev[i].key in Names(init)
    requires CoversNames(init, prev)
    requires FirstOccurrenceOrder(init, prev)
    ensures FirstOccurrenceOrder(init + [f], Put(prev, f))
  {
    var files := init + [f];
    var m := Put(prev, f);
    var isNew := f.name !in Keys(prev);
    if isNew {
      assert f.name !in Names(init);
      FirstIndexNew(init, f);
    }
    forall i, j | 0 <= i < j < |m| && m[i].key in Names(files) && m[j].key in Names(files)
      ensures FirstIndex(Names(files), m[i].key) < FirstIndex(Names(files), m[j].key)
    {
      assert m[i].key == prev[i].key;
      FirstIndexSnoc(init, f, prev[i].key);
      if j < |prev| {
        assert m[j].key == prev[j].key;
        FirstIndexSnoc(init, f, prev[j].key);
      } else {
        assert isNew && m[j].key == f.name;
      }
    }
  }

  /** The first occurrence is the position with the key and none before it. */
  lemma FirstIndexUnique(names: seq<string>, k: string, i: nat)
    requires i < |names| && names[i] == k
    requires forall j :: 0 <= j < i ==> names[j] != k
    ensures FirstIndex(names, k) == i
  {
  }

  /** A walk entry the directory enumeration keeps: not a directory, and
      named with the ".wasm" suffix. */
  predicate IsWasmEntry(f: FileEntry) {
    !f.IsDirectory() && EndsWith(f.name, WasmSuffix)
  }

  /** The walk filtered to its WASM entries (`filter { !it.isDirectory }`
      then `filter { it.name.endsWith(".wasm") }`): the kept entries in walk
      order, each as often as it occurs in the walk, and nothing else. */
  function WasmEntries(walk: seq<FileEntry>): (r: seq<FileEntry>)
    ensures forall f :: f in r <==> f in walk && IsWasmEntry(f)
    ensures Subsequence(r, walk)
    ensures forall f :: multiset(r)[f] == if IsWasmEntry(f) then multiset(walk)[f] else 0
  {
    if |walk| == 0 then []
    else
      assert walk == [walk[0]] + walk[1..];
      var rest := WasmEntries(walk[1..]);
      if IsWasmEntry(walk[0]) then
        assert ([walk[0]] + rest)[1..] == rest;
        [walk[0]] + rest
      else
        assert |rest| > 0 ==> rest[0] != walk[0] by {
          if |rest| > 0 {
            assert rest[0] in rest;
          }
        }
        rest
  }

  /** Directory mode (`getFilesFromPath`): the WASM entries of the walk keyed
      by file name. Each key holds the LAST entry with that name and the keys
      come in the order in which their names first occur in the walk; every
      WASM entry's name is a key and nothing else is. */
  function FilesFromPath(walk: seq<FileEntry>): (m: seq<Unit>)
    ensures DistinctKeys(m)
    ensures forall i :: 0 <= i < |m| ==>
      && m[i].file in walk
      && IsWasmEntry(m[i].file)
      && m[i].key == m[i].file.name
    ensures forall f :: f in walk && IsWasmEntry(f) ==> f.name in Keys(m)
    ensures ValuesAreLast(WasmEntries(walk), m)
    ensures FirstOccurrenceOrder(WasmEntries(walk), m)
  {
    var files := WasmEntries(walk);
    var m := AssociateByName(files);
    AssociateByNameKeepsLast(files);
    AssociateByNameCovers(files);
    AssociateByNameOrder(files);
    assert forall f :: f in files ==> f.name in Keys(m) by {
      forall f | f in files ensures f.name in Keys(m) {
        var j :| 0 <= j < |files| && files[j] == f;
      }
    }
    m
  }

  /** The files a run works on. Register mode takes the path itself, as a
      single entry, and only when it is a regular file (no suffix check);
      the other modes walk the directory. */
  function GetWasmFiles(mode: Mode, root: FileEntry, walk: seq<FileEntry>): (m: seq<Unit>)
    ensures DistinctKeys(m)
    ensures mode.Register? ==> |m| <= 1 && (|m| == 1 <==> root.IsFile())
    ensures mode.Register? ==> forall u :: u in m ==> u == Unit(root.name, root)
    ensures !mode.Register? ==> m == FilesFromPath(walk)
  {
    match mode
    case Default => FilesFromPath(walk)
    case Unregister => FilesFromPath(walk)
    case Register => if root.IsFile() then [Unit(root.name, root)] else []
  }
}
